=== FILE: README.md ===
# Image metadata annotator — a Dafny model of the annotation engine

The annotator is a desktop tool. It walks a dataset folder and collects the
image files. It keeps one record per image in `annotation.csv`. The record
columns are id, relative path, annotated flag, the five scene attributes
(indoor/outdoor, weather, time of day, motion blur, illumination) and a
last-modified time stamp. The user labels each image with five exclusive
button groups, saves the labels into the image's record, and moves between
images.

This project models the engine behind the widget:

- **Catalogue** (`catalogue.dfy`): the folder scan. It keeps the files whose
  lower-cased `splitext` extension is one of the seven listed, in walk order,
  as parallel lists of joined paths and file names.
- **PosixPath** (`posix_path.dfy`): the pieces of `str.split`,
  `posixpath.join`, `basename`, `splitext` and `str.lower` the engine relies
  on. **Seqs** (`seqs.dfy`) holds `list.index` and Python's negative list
  indices.
- **Vocabulary** (`vocabulary.dfy`): the five value lists, the header, the
  extensions, and the button-id scheme (`10 * group + position`, decoded by
  `divmod(id, 10)`).
- **Records** (`records.dfy`): record rows. It covers truncating an image path
  to the part that starts at the dataset folder's name, building a fresh
  table, replacing the row at the cursor, and counting annotated rows.
- **Selection** (`selection.dfy`): the selection state, in two layers. One is
  the checked button of each group, which the completeness check reads. The
  other is the five attribute strings, which saving writes. This file has the
  click handler, the indoor rule, and reloading the state from a record.
- **Cursor** (`cursor.dfy`): Next/Previous wrap-around and the jump to the
  most recently modified record.
- **Engine** (`engine.dfy`): the session and the handlers for open, click,
  save and navigate. It also states the invariant that the handlers keep.

Warnings and exceptions are the values of `Vocabulary.Fault`:

- `NoDataset`, `EmptyDataset` and `Incomplete` are the three warning dialogs.
- `IndexError`, `ValueError` and `AttributeError` are the Python exceptions
  that end a handler. The model lets the session go on after one, as PyQt5
  before 5.5 does. With PyQt5 5.5 or later and no `sys.excepthook` installed
  (the program installs none, annotator.py:402-405), an exception escaping a
  slot aborts the whole application instead. So every sequence below that
  continues after an exception describes the older PyQt5 or an installed
  hook.

The program as written cannot complete a save or show an image. Five defects
are listed under "## Findings". The handlers in `Engine` (`Show`, `Open`,
`Navigate`, `Save`, `ClickButton`) model the program with all five
corrected, and their invariant lemmas are statements about that corrected program. Each defect's
as-written behaviour is modelled beside it, in members whose names end in
`AsWritten`, together with lemmas that show what goes wrong. Examples are
`Engine.ShowAsWritten`, `Engine.SaveAsWritten`, `Selection.ReloadAsWritten`
and `Records.AnnotatedCountAsWritten`.

Apart from those corrections, where the description of the program and its
code disagree, the model follows the code:

- The path truncation starts at the **first** path segment equal to the
  folder's name, because that is what `list.index` returns (annotator.py:95,
  134). It is not the last segment.
- Opening a folder does **not** reset the cursor (annotator.py:73-86).
  `Engine.Open` keeps it, so a cursor beyond the new catalogue ends the open
  with `IndexError`.
- Pressing Previous before any open moves the cursor to -1
  (annotator.py:264-266, with no images), and line 197 then raises
  `IndexError`. If the session outlives that exception, a later open keeps
  the cursor, and a later save writes to the last row through Python's
  negative indexing, with id -1. `Seqs.PyIndex` and `Engine.Save` model
  this.

## Model

| member | source | states |
|---|---|---|
| Seqs.IndexOf | annotator.py:95 | `list.index`: the first position holding the value, and no result (Python's `ValueError`) exactly when the value is absent |
| Seqs.PyIndex | annotator.py:120 | Python list indexing accepts -n..n-1; a non-negative index reads itself, a negative one reads that many places back from the end |
| PosixPath.Split | annotator.py:95 | `str.split(sep)` yields at least one piece and no piece holds the separator |
| PosixPath.SplitIntercalate | annotator.py:95 | re-joining the split pieces with the separator gives the original string back |
| PosixPath.IntercalateSplit | annotator.py:95 | splitting separator-free pieces joined with the separator gives the pieces back, so split and join are inverse to each other |
| PosixPath.JoinIsIntercalate | annotator.py:95 | `posixpath.join` of nonempty, separator-free segments puts exactly one separator between consecutive segments |
| PosixPath.Basename | annotator.py:134 | the basename is a separator-free trailing part of the path that starts right after a separator or at the start |
| PosixPath.BasenameOfJoin | annotator.py:164 | the basename of a directory joined with a separator-free file name is that file name |
| PosixPath.ExtensionShape | annotator.py:163 | the `splitext` extension is empty, or a trailing dot-led part with no other dot and no separator; it is nonempty exactly when the last component has a dot preceded by a non-dot character |
| PosixPath.Lower | annotator.py:163 | lower-casing keeps the length, leaves no ASCII upper-case letter, moves each upper-case letter to its lower-case partner and keeps every other character |
| PosixPath.LowerIdempotent | annotator.py:163 | lower-casing an already lower-cased extension changes nothing |
| Vocabulary.Index | annotator.py:174-178 | each group's position in the group order is the tens digit its buttons get |
| Vocabulary.Decode | annotator.py:221 | `divmod(id, 10)` splits an id into a group number and a position in 0..9 that recompose to the id |
| Vocabulary.Encode | annotator.py:174-178 | a button's id is below 50 and decodes back to its group and position |
| Vocabulary.EncodeInjective | annotator.py:174-182 | distinct buttons are registered under distinct ids |
| Vocabulary.DecodeButtonId | annotator.py:174-182 | every registered id decodes to a group and a position inside that group's list, and encodes back to itself |
| Vocabulary.IndoorButtonIds | annotator.py:231-234 | buttons 17 and 24 are the last entries ("etc") of the weather and time-of-day groups, matching the values the indoor rule assigns |
| Vocabulary.ValuesDistinct | annotator.py:44-48 | no value list repeats a value, so `list.index` on a listed value finds that value's own position |
| Catalogue.FlattenMembers | annotator.py:161-162 | the walk's files are exactly the files its listings name |
| Catalogue.FilterMembers | annotator.py:163 | the filter keeps exactly the files whose extension qualifies |
| Catalogue.FilterIsSubseq | annotator.py:161-165 | the filter keeps files in their walk order |
| Catalogue.ScanMembers | annotator.py:158-166 | an image is catalogued exactly when the walk lists it in its directory and its lower-cased extension is one of the seven |
| Catalogue.ScanKeepsWalkOrder | annotator.py:161-165 | catalogued images appear in walk order |
| Catalogue.GetAllImageFilePaths | annotator.py:158-166 | the two returned lists have one entry per catalogued image: its directory joined with its file name, and its file name |
| Catalogue.NamesAreBasenames | annotator.py:164-165 | for file names without a separator, each name in the name list is the basename of the path at the same position |
| Records.RelativeSegmentsSpec | annotator.py:132-134 | the truncation raises `ValueError` exactly when no segment is the folder's name; otherwise it keeps the trailing segments from the first such segment |
| Records.RelativePath | annotator.py:132-134 | the relative path raises `ValueError` exactly when no segment of the image path is the folder's name |
| Records.RelativePathIsSuffix | annotator.py:132-134 | when no segment from the folder's name on is empty (absolute paths included), the relative path is a trailing part of the full path that starts at a separator and begins with the folder's name |
| Records.InitTable | annotator.py:94-96 | a fresh table succeeds exactly when every image path contains the folder's name, and then row i is unannotated, blank, has id i and has image i's relative path |
| Records.InitTableRowsOk | annotator.py:94-96 | every fresh row carries its own position as id and is a legal unannotated row |
| Records.CommitRow | annotator.py:120 | replacing the row at a Python index fails with `IndexError` exactly outside -n..n-1; otherwise only that row changes |
| Records.AttributesInDomains | annotator.py:44-48 | a row's five attribute columns all hold legal values exactly when each group's attribute is one of that group's listed values |
| Records.AnnotatedCount | annotator.py:208 | the count of "Y" rows is at most the table size, is zero exactly when no row is annotated, and equals the size exactly when all are |
| Records.AnnotatedCountAfterReplace | annotator.py:208 | replacing one row changes the count by the difference of the two rows' annotated flags |
| Selection.IsAnyGroupUnchecked | annotator.py:125-130 | the completeness check fails exactly when some group has no checked button |
| Selection.SetIndoorOutdoor | annotator.py:228-236 | position 0 sets the scene to "indoor" and weather and time of day to "etc"; the other positions set only the scene; motion blur and illumination are kept; a position past the list raises `IndexError` |
| Selection.HandleButtonClick | annotator.py:217-236 | with line 226 corrected: without a dataset a click only warns; with one, a registered button sets its group's attribute to its value and an id outside 0..49 changes nothing |
| Selection.IndoorRule | annotator.py:228-236 | "indoor" also sets weather and time of day to "etc"; "outdoor" and "etc" set only the scene |
| Selection.ClickChangesOnlyItsGroup | annotator.py:217-236 | a click leaves every other group's attribute alone, except that "indoor" also sets weather and time of day |
| Selection.Click | annotator.py:217-236 | with line 226 corrected: a click checks the clicked button, and with a dataset the indoor button also checks buttons 17 and 24; no other group's button changes; the attributes become what the handler assigns, or stay put without a dataset |
| Selection.ReloadButtons | annotator.py:246-262 | an annotated record checks, in every group, the button `list.index` finds for the record's value; a value outside its list raises `ValueError`; an unannotated record clears every group |
| Selection.Reload | annotator.py:238-262 | with lines 238-262 corrected: reloading from a record leaves buttons and attributes in agreement, with the record's attributes when it is annotated |
| Selection.ReloadRestores | annotator.py:238-256 | saving a complete, consistent selection and reloading the saved values gives that exact selection back |
| Selection.ClickKeepsConsistent | annotator.py:217-236 | with line 226 corrected: a click keeps the checked buttons and the attributes in agreement |
| Selection.IndexOfListed | annotator.py:248-256 | `list.index` of a value list's k-th value is k |
| Cursor.Next | annotator.py:270-272 | Next from a valid position moves one forward, wrapping from the last image to the first |
| Cursor.Previous | annotator.py:264-266 | Previous from a valid position moves one back, wrapping from the first image to the last |
| Cursor.NextPreviousInverse | annotator.py:264-272 | Next and Previous undo each other |
| Cursor.FirstMaxIndex | annotator.py:104 | argmax picks a position holding the largest value, with only smaller values before it |
| Cursor.MostRecent | annotator.py:103-104 | the jump to the newest record raises on an empty table, and otherwise lands on the first row with the latest time stamp |
| Cursor.MostRecentFindsNewest | annotator.py:103-104 | a row strictly newer than all others is the one the jump lands on |
| Engine.Show | annotator.py:196-209 | with line 208 corrected: a cursor outside the name list, the path list or the table raises `IndexError`; otherwise the step fails exactly when reloading the row at the cursor fails, and succeeds with the reloaded selection state |
| Engine.Install | annotator.py:73-96 | opening installs the new folder and catalogue, warns exactly when no image is found, takes an existing record file verbatim, and otherwise installs the fresh table or stops with `ValueError`, keeping the old table |
| Engine.Open | annotator.py:73-101 | opening keeps the cursor and installs the stored or fresh table; with a fresh table it fails exactly when the kept cursor is outside the new catalogue, with `IndexError` |
| Engine.ShowFresh | annotator.py:196-209 | a table of unannotated rows shows without a fault exactly when the cursor indexes it |
| Engine.ClickButton | annotator.py:217-219 | a click never touches the table or the cursor, and warns exactly when no dataset is loaded |
| Engine.Save | annotator.py:108-148 | with line 122 corrected: saving warns without a dataset or with an unchecked group; a successful save rewrites only the cursor's row, with the cursor as id, "Y", the five attributes, the time stamp and the image's relative path |
| Engine.SaveStep | annotator.py:108-122 | a save step changes the table exactly when the save succeeds, and otherwise reports the save's fault and changes nothing |
| Engine.NewRowAttributes | annotator.py:136-148 | the saved row's attribute columns are the five selected attributes |
| Engine.Move | annotator.py:264-274 | a navigation moves only the cursor |
| Engine.Navigate | annotator.py:264-274 | forward and back move the cursor by Next and Previous; the newest jump raises `ValueError` on an empty table and otherwise moves to the row `MostRecent` picks; the table is untouched |
| Engine.ShowAligned | annotator.py:238-262 | with line 208 corrected, showing an image at an aligned cursor cannot fail and leaves the selection state consistent |
| Engine.OpenFreshEstablishesInv | annotator.py:73-101 | with line 208 corrected and from a non-negative cursor, opening a folder with no record file either fails or establishes the engine invariant, and succeeds when the cursor is inside the catalogue and every path contains the folder's name |
| Engine.OpenFromMinusOneMisaligns | annotator.py:264-266 | Previous before any open leaves the cursor at -1 (and raises `IndexError`); if the session goes on, open keeps that cursor, so a fresh open succeeds with the invariant broken, and a complete save then stores id -1 in the last row |
| Engine.ClickKeepsInv | annotator.py:217-236 | with line 226 corrected: clicks preserve the engine invariant |
| Engine.CompleteMeansInDomains | annotator.py:136-148 | a complete, consistent selection yields a row whose every attribute is a legal value |
| Engine.SaveSucceedsWhenComplete | annotator.py:108-122 | with line 122 corrected, a loaded dataset and all groups checked, saving succeeds |
| Engine.SaveKeepsInv | annotator.py:108-122 | saving preserves the engine invariant |
| Engine.SuccessiveSavesBothKept | annotator.py:108-122 | with line 122 corrected, a second save to another image keeps the first saved row |
| Engine.NavigateKeepsInv | annotator.py:264-274 | with line 208 corrected, navigation cannot fail while a dataset is loaded, keeps the cursor inside the catalogue and preserves the invariant |
| Engine.SaveReloadRoundTrip | annotator.py:108-148 | reloading the row just saved restores the selection state that was saved |
| Engine.SavedRowIsNewest | annotator.py:103-104 | a save stamped later than every row makes the saved row the one the newest jump selects |
| Engine.SaveThenNewest | annotator.py:103-122 | with lines 122 and 208 corrected, save followed by the newest jump returns to the image just saved |
| Engine.NewestMovesTo | annotator.py:103-106 | the newest jump moves the cursor to the row the argmax picks |
| Records.InitTableAsWritten | annotator.py:94-96 | as written, the fresh rows are appended after whatever the list already holds; it succeeds exactly when the corrected table does, and row i lands at the list's old length plus i |
| Records.InitTableAsWrittenMisaligned | annotator.py:94-96 | as written, after a nonempty list holding no row at its own position, no fresh row sits at its own position |
| Records.AppendedTableStaysMisaligned | annotator.py:49-50 | the initial nine header names hold no row at its own position, and each as-written open keeps it so, so every later open is misaligned too |
| Records.AnnotatedCountAsWritten | annotator.py:208 | as written, the count raises `ValueError` exactly when some element does not unpack into three values |
| Records.AnnotatedCountAsWrittenFails | annotator.py:208 | neither the nine header names (the first is two characters long) nor any nonempty table of nine-column rows gets through the as-written count |
| Engine.ShowAsWritten | annotator.py:196-209 | as written, showing an image keeps the cursor and the table |
| Engine.ShowAsWrittenNeverReloads | annotator.py:196-209 | as written, showing an image always ends in an exception before `manage_checked_buttons` runs, with `ValueError` whenever the table has a row |
| Engine.OpenAsWritten | annotator.py:73-86 | as written, opening keeps the cursor |
| Engine.OpenAsWrittenNeverReloads | annotator.py:73-86 | as written, every open ends in a warning or an exception and leaves the selection state as it was |
| Engine.NavigateAsWritten | annotator.py:264-274 | as written, navigating leaves the table alone |
| Engine.NavigateAsWrittenNeverReloads | annotator.py:264-274 | as written, navigating on a loaded dataset moves the cursor as intended but raises `ValueError` before the selection state is reloaded |
| Engine.SaveAsWritten | annotator.py:108-123 | as written, saving warns without a dataset or with an unchecked group, always ends in a fault, and when it reaches line 122 the in-memory table is the file's table with only the cursor's row replaced |
| Engine.SaveAsWrittenRaises | annotator.py:122 | as written, a complete save on an aligned dataset whose file has a row per image raises `AttributeError` |
| Engine.OnlyLastSaveSurvives | annotator.py:117-122 | as written, and if the session outlives the first save's `AttributeError`, of two saves to different images only the second survives: the first image's row is the file's again |
| Selection.HandleButtonClickAsWritten | annotator.py:226 | as written, a click never changes the illumination attribute, and agrees with the corrected handler on every other group |
| Selection.ClickAsWritten | annotator.py:217-236 | as written, a click checks the same buttons as the corrected one, with the attributes the as-written handler assigns |
| Selection.ClickAsWrittenKeepsIllumination | annotator.py:226 | as written, the illumination attribute survives every click unchanged |
| Selection.ClickAsWrittenLosesIllumination | annotator.py:226 | as written, checking "bright" leaves the illumination attribute empty, so buttons and attributes disagree |
| Engine.EmptyIlluminationRejected | annotator.py:255-256 | an annotated record with empty illumination makes the reload raise `ValueError` |
| Engine.SaveWithoutIlluminationCannotReload | annotator.py:255-256 | a row saved while illumination is still empty holds "" there and can never be reloaded |
| Selection.ReloadAsWritten | annotator.py:238-262 | as written, reloading sets only the buttons and keeps the attributes from earlier clicks |
| Selection.ReloadAsWrittenLeavesStaleAttributes | annotator.py:238-256 | as written, reloading an annotated record from a cleared state checks every group but leaves every attribute empty |

## Left out

- The PyQt widget is not modelled. That covers layout, pixmaps, labels,
  message boxes, the integrity check box and the about dialog. A warning is
  the `Fault` value that a handler returns.
- CSV files are not modelled as files. A record file holds the whole table:
  every write stores it and every read gives it back. An existing file is an
  input to `Engine.Open`.
- `os.walk` and `datetime.now` are not modelled. The walk is an input list of
  directory listings and the clock is the `now` argument of `Engine.Save`.
- The `__main__` start-up and the QApplication event loop are not modelled.
- The text of the status labels is not modelled (annotator.py:203-215). Only
  the annotated count is modelled.
- PosixPath.Lower: lower-cases ASCII letters only, because the model has no
  Unicode case tables.
- When an exception ends a handler midway, the model lets the session go on,
  as PyQt5 before 5.5 does. With PyQt5 5.5 or later and the default hook, the
  first uncaught `IndexError`, `ValueError` or `AttributeError` ends the
  application, and no later event happens. The model keeps the handler's
  assignments to the fields it models that came before the failing line.
  These are the moved cursor, the new folder and catalogue, and the table
  read back at line 118. Two partial effects are dropped:
  - buttons of earlier groups already checked by `manage_checked_buttons`
    when a later group's `list.index` raises;
  - rows already appended to `header_list` when a later path lacks the folder
    name.
- Engine.Save: takes the folder name from the text box as it was at open. The
  program reads the text box again when saving (annotator.py:134).
- Engine.Save: models the save with line 122 corrected. It is the table
  written back, so a later save sees every earlier one. As written,
  `write_metadata_to_csv` is not defined anywhere in the program: the save
  raises `AttributeError` at line 122 after replacing the row in memory, and
  nothing is written. `Engine.SaveAsWritten` models that.
- `check_annotated` (annotator.py:123) is not defined anywhere either. It is
  never reached as written. The corrected save treats it as doing nothing.
- SaveSucceedsWhenComplete (`Engine.SaveSucceedsWhenComplete`): promises
  success only for the save with line 122 corrected. As written, the same
  save raises `AttributeError` (`Engine.SaveAsWrittenRaises`).
- SaveThenNewest (`Engine.SaveThenNewest`): holds for the program with lines
  122 and 208 corrected. As written, the save raises at line 122
  (`Engine.SaveAsWrittenRaises`) and the jump raises at line 208
  (`Engine.NavigateAsWrittenNeverReloads`).
- ShowAligned (`Engine.ShowAligned`): "cannot fail" holds with line 208
  corrected. As written, every show fails (`Engine.ShowAsWrittenNeverReloads`).
- NavigateKeepsInv (`Engine.NavigateKeepsInv`): "cannot fail" holds with line
  208 corrected. As written, navigation raises `ValueError`
  (`Engine.NavigateAsWrittenNeverReloads`).
- OpenFreshEstablishesInv (`Engine.OpenFreshEstablishesInv`): its success
  half holds with line 208 corrected. As written, every open ends in a fault
  (`Engine.OpenAsWrittenNeverReloads`). It also holds only from a cursor that
  is not negative. Pressing Previous before any folder is opened leaves the
  cursor at -1 (lines 264-266), and open does not reset it. From there a fresh
  open succeeds, because index -1 reads the last image, but the invariant
  fails, and a later save writes id -1 into the last row
  (`Engine.OpenFromMinusOneMisaligns`).
- Engine.Show: models the show with line 208 corrected. It computes no count,
  since the count only feeds a label. `Engine.ShowAsWritten` models the
  as-written count.
- Engine.OpenAsWritten: uses the corrected fresh table (lines 94-96), so that
  it isolates the effect of line 208. The as-written table of lines 94-101 is
  `Records.InitTableAsWritten`.
- Before any folder is opened, `header_list` holds the nine header names. The
  model's `Engine.Start` holds an empty table instead. Save warns in both. The
  newest jump differs. In the model it raises `ValueError` and keeps cursor 0.
  The program takes the argmax of the names' last characters (line 104). That
  is 5, the 'y' of 'time_of_day', so the cursor becomes 5, and only then does
  line 197 raise `IndexError`. With PyQt5 5.5 or later and the default hook
  that exception ends the application. If the session goes on, open does
  not reset the cursor, so the next open shows image #6, or raises
  `IndexError` when the folder has at most five images. In the model that
  open starts from cursor 0 and shows image #1.
- Engine.OpenFromMinusOneMisaligns: the model lets the session continue
  after the `IndexError` that Previous raises at line 197 before any open.
  That holds with PyQt5 before 5.5 or with an installed excepthook. With
  PyQt5 5.5 or later and the default hook, that first exception ends the
  application, and the open and the save never happen.
- Engine.OnlyLastSaveSurvives: the model lets the session continue after
  the first save's `AttributeError` at line 122. That holds with PyQt5
  before 5.5 or with an installed excepthook. With PyQt5 5.5 or later and
  the default hook, the first save ends the application. The file then holds
  no label at all, and there is no second save.
- Cursor.MostRecent: compares the time stamps as integers. numpy compares the
  column loaded from the file as strings. The two orders agree for the
  14-digit stamps and the initial 0 the program writes.

## Findings

| source | as written | input that shows it | evidently intended | confidence | as-written member | corrected member |
|---|---|---|---|---|---|---|
| annotator.py:94-101 | fresh rows are appended to `header_list`, which already holds the nine header names (and after an earlier open, that open's rows too), and the whole list is written as the header row and again as rows | any dataset without a record file: row 0 of the in-memory table is the string 'id' | a table whose row i is image i's record, under one header row | high (not executed) | Records.InitTableAsWrittenMisaligned, Records.AppendedTableStaysMisaligned | Records.InitTable, Engine.OpenFreshEstablishesInv |
| annotator.py:122 | `write_metadata_to_csv` is not defined, so every save that passes the two checks raises `AttributeError` after replacing the row in memory; the file is never written, and the next save re-reads it (117-118) | save image 0: `AttributeError` is raised after the row is replaced in memory, and the file holds no label; if the session goes on (PyQt5 before 5.5, or an installed excepthook), moving to image 1 and saving leaves the in-memory table again holding the file's row for image 0 | write the table back to the record file | high (not executed) | Engine.SaveAsWrittenRaises, Engine.OnlyLastSaveSurvives | Engine.Save, Engine.SuccessiveSavesBothKept |
| annotator.py:226 | the illumination branch assigns `self.illu`, so `self.illumination` stays '' | with lines 122 and 208 corrected: check all five groups, including "bright" (id 40), and save; the saved row holds illumination '', and showing it again raises `ValueError` in `list.index` at line 256 | the click sets `self.illumination` | high (not executed) | Selection.ClickAsWrittenLosesIllumination, Engine.SaveWithoutIlluminationCannotReload | Selection.HandleButtonClick, Selection.ClickKeepsConsistent |
| annotator.py:208 | each element of `header_list` is unpacked into three names, but rows have nine columns and the header names are not three characters long | any nonempty list raises `ValueError`, so opening a dataset (line 85) and every navigation raise before `manage_checked_buttons` | count the rows whose annotated column is 'Y' | high (not executed) | Records.AnnotatedCountAsWrittenFails, Engine.ShowAsWrittenNeverReloads | Records.AnnotatedCount, Engine.ShowAligned |
| annotator.py:238-262 | showing a record checks its buttons but never assigns the five attribute strings | with lines 122 and 208 corrected: open a dataset whose record file marks image 0 annotated ("outdoor", "clear", "dawn", "o", "bright") and press save without clicking; all groups are checked, so the row is rewritten with the empty attributes and can no longer be shown | the attributes follow the record, as the checked buttons do | medium (not executed) | Selection.ReloadAsWrittenLeavesStaleAttributes | Selection.Reload, Engine.SaveReloadRoundTrip |

=== FILE: catalogue.dfy ===
/** The image catalogue: which files of a directory walk are images, in the
    order the walk yields them (`get_all_image_file_paths`). The walk itself is
    an input: one listing per directory, as `os.walk` yields them. */
module Catalogue {
  import opened PosixPath
  import opened Vocabulary

  /** One directory of the walk: its path and the names of the files in it. */
  datatype DirListing = DirListing(dir: string, files: seq<string>)

  /** A file found by the walk. */
  datatype ImageFile = ImageFile(dir: string, name: string) {
    /** The path the catalogue records, `os.path.join(dir, name)`. */
    function Path(): string {
      Join([dir, name])
    }
  }

  /** A file is an image when its lower-cased extension is in the fixed list. */
  predicate IsImageName(name: string) {
    Lower(Extension(name)) in Extensions
  }

  /** The files of one directory, in listing order: one item per listed name,
      and an item is there exactly when it lies in `dir` and its name is listed. */
  function Items(dir: string, files: seq<string>): (r: seq<ImageFile>)
    ensures |r| == |files|
    ensures forall x :: x in r <==> x.dir == dir && x.name in files
  {
    var r := seq(|files|, k requires 0 <= k < |files| => ImageFile(dir, files[k]));
    assert forall x: ImageFile | x.dir == dir && x.name in files :: x in r by {
      forall x: ImageFile | x.dir == dir && x.name in files ensures x in r {
        var k :| 0 <= k < |files| && files[k] == x.name;
        assert r[k] == x;
      }
    }
    r
  }

  /** Listing one more file of a directory adds one item at the end. */
  lemma ItemsSnoc(dir: string, files: seq<string>, j: nat)
    requires j < |files|
    ensures Items(dir, files[..j + 1]) == Items(dir, files[..j]) + [ImageFile(dir, files[j])]
  {
  }

  /** Every file of the walk, directory after directory. */
  function Flatten(walk: seq<DirListing>): seq<ImageFile> {
    if |walk| == 0 then []
    else
      var last := walk[|walk| - 1];
      Flatten(walk[..|walk| - 1]) + Items(last.dir, last.files)
  }

  /** The flattened walk holds exactly the files the listings name. */
  lemma {:induction false} FlattenMembers(walk: seq<DirListing>)
    ensures forall x :: x in Flatten(walk) <==>
      exists i, j :: 0 <= i < |walk| && 0 <= j < |walk[i].files| && x == ImageFile(walk[i].dir, walk[i].files[j])
  {
    if |walk| > 0 {
      var init := walk[..|walk| - 1];
      FlattenMembers(init);
      assert forall i :: 0 <= i < |init| ==> init[i] == walk[i];
    }
  }

  /** `ys` is `xs` with some elements removed, the rest kept in order. */
  predicate IsSubseq(ys: seq<ImageFile>, xs: seq<ImageFile>) {
    if |ys| == 0 then true
    else if |xs| == 0 then false
    else if ys[|ys| - 1] == xs[|xs| - 1] then IsSubseq(ys[..|ys| - 1], xs[..|xs| - 1])
    else IsSubseq(ys, xs[..|xs| - 1])
  }

  /** The image files of `xs`, in the order of `xs`. */
  function FilterImages(xs: seq<ImageFile>): (r: seq<ImageFile>)
    ensures |r| <= |xs|
  {
    if |xs| == 0 then []
    else
      var r := FilterImages(xs[..|xs| - 1]);
      if IsImageName(xs[|xs| - 1].name) then r + [xs[|xs| - 1]] else r
  }

  /** Filtering keeps exactly the files whose name qualifies. */
  lemma {:induction false} FilterMembers(xs: seq<ImageFile>)
    ensures forall x :: x in FilterImages(xs) <==> x in xs && IsImageName(x.name)
  {
    if |xs| > 0 {
      var init := xs[..|xs| - 1];
      FilterMembers(init);
      assert xs == init + [xs[|xs| - 1]];
    }
  }

  /** Filtering drops files but never reorders the ones it keeps. */
  lemma {:induction false} FilterIsSubseq(xs: seq<ImageFile>)
    ensures IsSubseq(FilterImages(xs), xs)
  {
    if |xs| > 0 {
      var init := xs[..|xs| - 1];
      var r := FilterImages(init);
      FilterIsSubseq(init);
      if IsImageName(xs[|xs| - 1].name) {
        assert (r + [xs[|xs| - 1]])[..|r|] == r;
      } else if |r| > 0 {
        FilterMembers(init);
        assert r[|r| - 1] in r;
        assert IsImageName(r[|r| - 1].name);
        assert r[|r| - 1] != xs[|xs| - 1];
      }
    }
  }

  /** Filtering a list extended by one file extends the filtered list by that
      file exactly when it is an image. */
  lemma FilterSnoc(xs: seq<ImageFile>, x: ImageFile)
    ensures FilterImages(xs + [x]) == FilterImages(xs) + (if IsImageName(x.name) then [x] else [])
  {
    assert (xs + [x])[..|xs|] == xs;
  }

  /** The catalogue of a walk. */
  function Scan(walk: seq<DirListing>): seq<ImageFile> {
    FilterImages(Flatten(walk))
  }

  /** An image is in the catalogue exactly when the walk lists it in its
      directory and its extension qualifies. */
  lemma ScanMembers(walk: seq<DirListing>, dir: string, name: string)
    ensures ImageFile(dir, name) in Scan(walk) <==>
      IsImageName(name) &&
      exists i, j :: 0 <= i < |walk| && 0 <= j < |walk[i].files| && walk[i].dir == dir && walk[i].files[j] == name
  {
    FilterMembers(Flatten(walk));
    FlattenMembers(walk);
  }

  /** The catalogue keeps the walk's order. */
  lemma ScanKeepsWalkOrder(walk: seq<DirListing>)
    ensures IsSubseq(Scan(walk), Flatten(walk))
  {
    FilterIsSubseq(Flatten(walk));
  }

  /** The parallel path and name lists describe the files `acc`, entry by entry. */
  predicate Describes(paths: seq<string>, names: seq<string>, acc: seq<ImageFile>) {
    |paths| == |names| == |acc| &&
    forall k :: 0 <= k < |acc| ==> paths[k] == acc[k].Path() && names[k] == acc[k].name
  }

  /** Recording one more file keeps the lists in step with the files. */
  lemma DescribesSnoc(paths: seq<string>, names: seq<string>, acc: seq<ImageFile>, x: ImageFile)
    requires Describes(paths, names, acc)
    ensures Describes(paths + [x.Path()], names + [x.name], acc + [x])
  {
  }

  /** `get_all_image_file_paths`: walks the listings in order and records the
      joined path and the bare name of every image file, giving two parallel
      lists that follow the catalogue position by position. */
  method GetAllImageFilePaths(walk: seq<DirListing>) returns (paths: seq<string>, names: seq<string>)
    ensures Describes(paths, names, Scan(walk))
  {
    paths, names := [], [];
    var i := 0;
    while i < |walk|
      invariant 0 <= i <= |walk|
      invariant Describes(paths, names, FilterImages(Flatten(walk[..i])))
    {
      paths, names := AddDirectory(walk[i].dir, walk[i].files, paths, names, Flatten(walk[..i]));
      assert walk[..i + 1][..i] == walk[..i];
      i := i + 1;
    }
    assert walk[..i] == walk;
  }

  /** The inner loop of `get_all_image_file_paths`: appends the image files of
      one directory listing to the two lists. */
  method AddDirectory(dir: string, files: seq<string>, paths0: seq<string>, names0: seq<string>, ghost before: seq<ImageFile>)
    returns (paths: seq<string>, names: seq<string>)
    requires Describes(paths0, names0, FilterImages(before))
    ensures Describes(paths, names, FilterImages(before + Items(dir, files)))
  {
    paths, names := paths0, names0;
    var j := 0;
    assert before + Items(dir, files[..0]) == before;
    while j < |files|
      invariant 0 <= j <= |files|
      invariant Describes(paths, names, FilterImages(before + Items(dir, files[..j])))
    {
      PrefixStep(before, dir, files, j);
      paths, names := AddFile(dir, files[j], paths, names, before + Items(dir, files[..j]));
      j := j + 1;
    }
    assert files[..j] == files;
  }

  /** The files seen after one more step of the inner loop. */
  lemma PrefixStep(before: seq<ImageFile>, dir: string, files: seq<string>, j: nat)
    requires j < |files|
    ensures before + Items(dir, files[..j + 1]) == (before + Items(dir, files[..j])) + [ImageFile(dir, files[j])]
  {
    ItemsSnoc(dir, files, j);
  }

  /** The body of the inner loop: records one file when its extension qualifies. */
  method AddFile(dir: string, file: string, paths0: seq<string>, names0: seq<string>, ghost done: seq<ImageFile>)
    returns (paths: seq<string>, names: seq<string>)
    requires Describes(paths0, names0, FilterImages(done))
    ensures Describes(paths, names, FilterImages(done + [ImageFile(dir, file)]))
  {
    FilterSnoc(done, ImageFile(dir, file));
    if IsImageName(file) {
      DescribesSnoc(paths0, names0, FilterImages(done), ImageFile(dir, file));
      paths, names := paths0 + [Join([dir, file])], names0 + [file];
    } else {
      paths, names := paths0, names0;
    }
  }

  /** The name list holds the last path component of the path list, entry by
      entry, since the walk's file names never contain the separator. */
  lemma NamesAreBasenames(walk: seq<DirListing>)
    requires forall i, j :: 0 <= i < |walk| && 0 <= j < |walk[i].files| ==> Sep !in walk[i].files[j]
    ensures forall k :: 0 <= k < |Scan(walk)| ==> Basename(Scan(walk)[k].Path()) == Scan(walk)[k].name
  {
    forall k | 0 <= k < |Scan(walk)|
      ensures Basename(Scan(walk)[k].Path()) == Scan(walk)[k].name
    {
      var x := Scan(walk)[k];
      FilterMembers(Flatten(walk));
      FlattenMembers(walk);
      assert x in Flatten(walk);
      BasenameOfJoin(x.dir, x.name);
    }
  }
}

=== FILE: cursor.dfy ===
/** The navigation cursor: wrap-around next and previous, and the jump to the
    most recently saved record. */
module Cursor {
  import opened Wrappers
  import opened Vocabulary
  import opened Records

  /** `go_to_next_image`: one step forward, back to the first image after the
      last. For an index inside the catalogue this is `(i + 1) mod n`. */
  function Next(i: int, n: int): (r: int)
    ensures 0 <= i < n ==> 0 <= r < n && r == (i + 1) % n
  {
    var j := i + 1;
    if j >= n then 0 else j
  }

  /** `go_to_previous_image`: one step back, on to the last image before the
      first. For an index inside the catalogue this is `(i - 1 + n) mod n`. */
  function Previous(i: int, n: int): (r: int)
    ensures 0 <= i < n ==> 0 <= r < n && r == (i - 1 + n) % n
  {
    var j := i - 1;
    if j < 0 then n - 1 else j
  }

  /** Stepping back undoes stepping forward, and the other way round. */
  lemma NextPreviousInverse(i: int, n: int)
    requires 0 <= i < n
    ensures Previous(Next(i, n), n) == i
    ensures Next(Previous(i, n), n) == i
  {
  }

  /** The position of the first largest element: every element is at most it
      and every earlier one is strictly smaller. */
  function FirstMaxIndex(xs: seq<int>): (k: nat)
    requires |xs| > 0
    ensures k < |xs|
    ensures forall j :: 0 <= j < |xs| ==> xs[j] <= xs[k]
    ensures forall j :: 0 <= j < k ==> xs[j] < xs[k]
  {
    if |xs| == 1 then 0
    else
      var k := FirstMaxIndex(xs[..|xs| - 1]);
      if xs[|xs| - 1] > xs[k] then |xs| - 1 else k
  }

  /** The last-modified column of the table. */
  function Stamps(table: seq<Row>): (r: seq<int>)
    ensures |r| == |table|
    ensures forall i :: 0 <= i < |table| ==> r[i] == table[i].lastModified
  {
    seq(|table|, i requires 0 <= i < |table| => table[i].lastModified)
  }

  /** `navigate_to_recently_annotated_image`: the first row whose last-modified
      stamp is the largest; `argmax` of an empty column raises `ValueError`. */
  function MostRecent(table: seq<Row>): (r: Result<nat, Fault>)
    ensures r.Failure? <==> |table| == 0
    ensures r.Failure? ==> r.error == ValueError
    ensures r.Success? ==> r.value < |table|
    ensures r.Success? ==> forall j :: 0 <= j < |table| ==> table[j].lastModified <= table[r.value].lastModified
    ensures r.Success? ==> forall j :: 0 <= j < r.value ==> table[j].lastModified < table[r.value].lastModified
  {
    if |table| == 0 then Failure(ValueError) else Success(FirstMaxIndex(Stamps(table)))
  }

  /** A row stamped later than every other row is the one the jump selects. */
  lemma MostRecentFindsNewest(table: seq<Row>, i: nat)
    requires i < |table|
    requires forall j :: 0 <= j < |table| && j != i ==> table[j].lastModified < table[i].lastModified
    ensures MostRecent(table) == Success(i)
  {
  }
}

=== FILE: engine.dfy ===
/** The annotation engine: the state the widget keeps between events and the
    handlers for opening a dataset, clicking a button, saving and navigating.
    File reads and writes are modelled by the table itself (every write stores
    the whole table, every read returns it), the directory walk and an existing
    record file are inputs to `Open`, and the clock is the `now` argument of
    `Save`. */
module Engine {
  import opened Wrappers
  import opened Seqs
  import opened PosixPath
  import opened Vocabulary
  import opened Catalogue
  import opened Records
  import opened Selection
  import opened Cursor

  /** What the widget holds: the folder text, the catalogue's parallel path
      and name lists, the record table, the cursor and the selection state. */
  datatype Session = Session(
    root: string,
    filePaths: seq<string>,
    fileNames: seq<string>,
    table: seq<Row>,
    cursor: int,
    panel: Panel)

  /** The state a handler leaves behind and the warning or exception, if any,
      that ended it. */
  datatype Step = Step(session: Session, fault: Option<Fault>)

  /** The three navigation buttons. */
  datatype Direction = Forward | Backward | Newest

  /** The state before any folder is opened. */
  const Start: Session := Session("", [], [], [], 0, Cleared)

  /** A dataset is loaded when the catalogue is not empty. */
  predicate Loaded(s: Session) {
    |s.filePaths| > 0
  }

  /** The catalogue, the table and the cursor line up: every row sits at its
      own id with the relative path of its image and is either blank or
      legally annotated, and the cursor is inside the catalogue. */
  ghost predicate Aligned(s: Session) {
    && |s.fileNames| == |s.filePaths| == |s.table|
    && 0 <= s.cursor < |s.filePaths|
    && (forall i :: 0 <= i < |s.table| ==>
          s.table[i].id == i && RowOk(s.table[i]) &&
          RelativePath(s.filePaths[i], s.root) == Success(s.table[i].path))
  }

  /** What the engine keeps true while a dataset is loaded: alignment, and
      checked buttons that agree with the attributes. */
  ghost predicate Inv(s: Session) {
    Loaded(s) ==> Aligned(s) && Consistent(s.panel)
  }

  /** The catalogue's path list. */
  function CataloguePaths(walk: seq<DirListing>): (r: seq<string>)
    ensures |r| == |Scan(walk)|
  {
    var cat := Scan(walk);
    seq(|cat|, k requires 0 <= k < |cat| => cat[k].Path())
  }

  /** The catalogue's name list. */
  function CatalogueNames(walk: seq<DirListing>): (r: seq<string>)
    ensures |r| == |Scan(walk)|
  {
    var cat := Scan(walk);
    seq(|cat|, k requires 0 <= k < |cat| => cat[k].name)
  }

  /** The cursor is a Python index into the name list, the path list and the
      table alike. */
  predicate CursorReadable(s: Session) {
    PyIndexOk(s.cursor, |s.fileNames|) && PyIndexOk(s.cursor, |s.filePaths|) && PyIndexOk(s.cursor, |s.table|)
  }

  /** `manage_checked_buttons` on the row at the cursor, after line 209 has
      read that row: `IndexError` when there is none. */
  function LoadRow(s: Session): (st: Step)
  {
    if !PyIndexOk(s.cursor, |s.table|) then Step(s, Some(IndexError))
    else
      match Reload(s.panel, s.table[PyIndex(s.cursor, |s.table|)])
      case Failure(e) => Step(s, Some(e))
      case Success(p) => Step(s.(panel := p), None)
  }

  /** The same with `manage_checked_buttons` as written, which sets the
      buttons alone. */
  function LoadRowAsWritten(s: Session): (st: Step)
  {
    if !PyIndexOk(s.cursor, |s.table|) then Step(s, Some(IndexError))
    else
      match ReloadAsWritten(s.panel, s.table[PyIndex(s.cursor, |s.table|)])
      case Failure(e) => Step(s, Some(e))
      case Success(p) => Step(s.(panel := p), None)
  }

  /** The end of every handler that moves to an image, with the annotated
      count of line 208 corrected: `update_image_and_info` reads the image's
      name and path and the status label reads its row, then
      `manage_checked_buttons` reloads the selection state from that row. A
      cursor outside any of the three lists raises `IndexError`; otherwise the
      step fails exactly when reloading the row fails, and then nothing
      changes. */
  function Show(s: Session): (st: Step)
    ensures st.session.cursor == s.cursor && st.session.table == s.table
    ensures st.session.filePaths == s.filePaths && st.session.root == s.root
    ensures !CursorReadable(s) ==> st == Step(s, Some(IndexError))
    ensures CursorReadable(s) ==>
      var r := Reload(s.panel, s.table[PyIndex(s.cursor, |s.table|)]);
      && (r.Failure? ==> st == Step(s, Some(r.error)))
      && (r.Success? ==> st == Step(s.(panel := r.value), None))
  {
    if !PyIndexOk(s.cursor, |s.fileNames|) || !PyIndexOk(s.cursor, |s.filePaths|) then Step(s, Some(IndexError))
    else LoadRow(s)
  }

  /** `update_image_and_info` followed by `manage_checked_buttons` as written:
      the annotated count of line 208 unpacks every row of the table. */
  function ShowAsWritten(s: Session): (st: Step)
    ensures st.session.cursor == s.cursor && st.session.table == s.table
  {
    if !PyIndexOk(s.cursor, |s.fileNames|) || !PyIndexOk(s.cursor, |s.filePaths|) then Step(s, Some(IndexError))
    else
      match AnnotatedCountAsWritten(DataRows(s.table))
      case Failure(e) => Step(s, Some(e))
      case Success(_) => LoadRowAsWritten(s)
  }

  /** As written, showing an image never reaches `manage_checked_buttons`: it
      raises `ValueError` at the annotated count whenever the table has a row,
      and `IndexError` otherwise, so the selection state is never reloaded. */
  lemma ShowAsWrittenNeverReloads(s: Session)
    ensures ShowAsWritten(s).fault.Some? && ShowAsWritten(s).session == s
    ensures PyIndexOk(s.cursor, |s.fileNames|) && PyIndexOk(s.cursor, |s.filePaths|) && |s.table| > 0 ==>
      ShowAsWritten(s).fault == Some(ValueError)
  {
    AnnotatedCountAsWrittenFails(s.table);
  }

  /** The part of `open_folder` before the image is shown: scan the walk; with
      no image, warn (the lists are already replaced by empty ones). Otherwise
      take the existing record file verbatim, or build a fresh table, which
      raises `ValueError` and keeps the old table when some path lacks the
      folder name. */
  function Install(s: Session, text: string, walk: seq<DirListing>, stored: Option<seq<Row>>): (st: Step)
    ensures st.session.filePaths == CataloguePaths(walk) && st.session.fileNames == CatalogueNames(walk)
    ensures st.session.root == text && st.session.cursor == s.cursor && st.session.panel == s.panel
    ensures |Scan(walk)| == 0 <==> st.fault == Some(EmptyDataset)
    ensures |Scan(walk)| > 0 && stored.Some? ==> st.fault.None? && st.session.table == stored.value
    ensures |Scan(walk)| > 0 && stored.None? && InitTable(CataloguePaths(walk), text).Failure? ==>
      st.fault == Some(ValueError) && st.session.table == s.table
    ensures |Scan(walk)| > 0 && stored.None? && InitTable(CataloguePaths(walk), text).Success? ==>
      st.fault.None? && st.session.table == InitTable(CataloguePaths(walk), text).value
  {
    var s1 := s.(root := text, filePaths := CataloguePaths(walk), fileNames := CatalogueNames(walk));
    if |Scan(walk)| == 0 then Step(s1, Some(EmptyDataset))
    else
      match stored
      case Some(rows) => Step(s1.(table := rows), None)
      case None =>
        match InitTable(s1.filePaths, text)
        case Failure(e) => Step(s1, Some(e))
        case Success(rows) => Step(s1.(table := rows), None)
  }

  /** `open_folder` with line 208 corrected: install the catalogue and the
      table, then show the image at the cursor, which opening does not reset.
      A fresh table then fails to show exactly when the kept cursor is outside
      the new catalogue. */
  function Open(s: Session, text: string, walk: seq<DirListing>, stored: Option<seq<Row>>): (st: Step)
    ensures st.session.filePaths == CataloguePaths(walk) && st.session.fileNames == CatalogueNames(walk)
    ensures st.session.root == text && st.session.cursor == s.cursor
    ensures |Scan(walk)| == 0 <==> st.fault == Some(EmptyDataset)
    ensures |Scan(walk)| > 0 && stored.Some? ==> st.session.table == stored.value
    ensures |Scan(walk)| > 0 && stored.None? && InitTable(CataloguePaths(walk), text).Failure? ==>
      st.fault == Some(ValueError) && st.session.table == s.table
    ensures |Scan(walk)| > 0 && stored.None? && InitTable(CataloguePaths(walk), text).Success? ==>
      st.session.table == InitTable(CataloguePaths(walk), text).value &&
      (st.fault.Some? <==> !PyIndexOk(s.cursor, |Scan(walk)|)) &&
      (st.fault.Some? ==> st.fault == Some(IndexError))
  {
    var inst := Install(s, text, walk, stored);
    if inst.fault.Some? then inst
    else if stored.Some? then Show(inst.session)
    else
      InitTableRowsOk(CataloguePaths(walk), text);
      ShowFresh(inst.session);
      Show(inst.session)
  }

  /** A table of unannotated rows, as long as the catalogue, shows without a
      fault exactly when the cursor indexes it. */
  lemma ShowFresh(s: Session)
    requires |s.fileNames| == |s.filePaths| == |s.table|
    requires forall i :: 0 <= i < |s.table| ==> RowOk(s.table[i]) && s.table[i].annotated == No
    ensures Show(s).fault.Some? <==> !PyIndexOk(s.cursor, |s.table|)
    ensures Show(s).fault.Some? ==> Show(s).fault == Some(IndexError)
  {
    if PyIndexOk(s.cursor, |s.table|) {
      var row := s.table[PyIndex(s.cursor, |s.table|)];
      assert row.annotated == No;
    }
  }

  /** `open_folder` as written at line 208: the same installation, then the
      image shown as written. */
  function OpenAsWritten(s: Session, text: string, walk: seq<DirListing>, stored: Option<seq<Row>>): (st: Step)
    ensures st.session.cursor == s.cursor
  {
    var inst := Install(s, text, walk, stored);
    if inst.fault.Some? then inst else ShowAsWritten(inst.session)
  }

  /** As written, every open ends in a warning or an exception and leaves the
      selection state as it was; an open that installs a table with rows ends
      in `ValueError` at the annotated count. */
  lemma OpenAsWrittenNeverReloads(s: Session, text: string, walk: seq<DirListing>, stored: Option<seq<Row>>)
    ensures OpenAsWritten(s, text, walk, stored).fault.Some?
    ensures OpenAsWritten(s, text, walk, stored).session.panel == s.panel
  {
    ShowAsWrittenNeverReloads(Install(s, text, walk, stored).session);
  }

  /** A button click on a registered button. */
  function ClickButton(s: Session, id: int): (st: Step)
    requires IsButtonId(id)
    ensures st.session.table == s.table && st.session.cursor == s.cursor
    ensures st.fault.Some? <==> !Loaded(s)
  {
    Step(s.(panel := Click(s.panel, Loaded(s), id)), if Loaded(s) then None else Some(NoDataset))
  }

  /** The row `create_new_row_data` builds for image `i`. */
  function NewRow(i: int, relPath: string, sel: Selection, now: int): Row {
    Row(i, relPath, Yes, sel.inOut, sel.weather, sel.timeOfDay, sel.motionBlur, sel.illumination, now)
  }

  /** `save_metadata_to_csv`: without a dataset, or with a group unchecked, it
      only warns; otherwise the row at the cursor becomes an annotated row with
      the image's relative path, the five attributes and the time stamp, and
      every other row stays as it was. */
  function Save(s: Session, now: int): (r: Result<seq<Row>, Fault>)
    ensures !Loaded(s) <==> r == Failure(NoDataset)
    ensures Loaded(s) && IsAnyGroupUnchecked(s.panel.buttons) ==> r == Failure(Incomplete)
    ensures r.Success? ==> |r.value| == |s.table| && PyIndexOk(s.cursor, |s.table|)
    ensures r.Success? ==> PyIndexOk(s.cursor, |s.filePaths|)
    ensures r.Success? ==>
      var k := PyIndex(s.cursor, |s.table|);
      && r.value[k].id == s.cursor && r.value[k].annotated == Yes && r.value[k].lastModified == now
      && (forall g :: r.value[k].Attribute(g) == s.panel.sel.Get(g))
      && RelativePath(s.filePaths[PyIndex(s.cursor, |s.filePaths|)], s.root) == Success(r.value[k].path)
    ensures r.Success? ==>
      forall j :: 0 <= j < |s.table| && j != PyIndex(s.cursor, |s.table|) ==> r.value[j] == s.table[j]
  {
    if !Loaded(s) then Failure(NoDataset)
    else if IsAnyGroupUnchecked(s.panel.buttons) then Failure(Incomplete)
    else if !PyIndexOk(s.cursor, |s.filePaths|) then Failure(IndexError)
    else
      match RelativePath(s.filePaths[PyIndex(s.cursor, |s.filePaths|)], s.root)
      case Failure(e) => Failure(e)
      case Success(rel) =>
        var row := NewRow(s.cursor, rel, s.panel.sel, now);
        NewRowAttributes(row, rel, s.panel.sel, s.cursor, now);
        CommitRow(s.table, s.cursor, row)
  }

  /** The new row's attribute columns are the selection's attributes. */
  lemma NewRowAttributes(row: Row, rel: string, sel: Selection, i: int, now: int)
    requires row == NewRow(i, rel, sel, now)
    ensures forall g :: row.Attribute(g) == sel.Get(g)
  {
    forall g ensures row.Attribute(g) == sel.Get(g) {
      match g
      case InOut =>
      case Weather =>
      case TimeOfDay =>
      case Motion =>
      case Illumination =>
    }
  }

  /** The save handler as a step: on a warning or exception nothing changes;
      otherwise the table becomes the saved one. */
  function SaveStep(s: Session, now: int): (st: Step)
    ensures st.fault.None? <==> Save(s, now).Success?
    ensures st.fault.Some? ==> st.session == s && st.fault == Some(Save(s, now).error)
    ensures st.fault.None? ==> st.session == s.(table := Save(s, now).value)
  {
    match Save(s, now)
    case Failure(e) => Step(s, Some(e))
    case Success(t) => Step(s.(table := t), None)
  }

  /** `save_metadata_to_csv` as written, given the rows the record file holds:
      after the two warnings, the relative path is computed (line 115), the
      table is read back from the file (117-118), the new row replaces the one
      at the cursor in memory (119-120), and the call of the undefined
      `write_metadata_to_csv` (122) raises `AttributeError`, so the file is
      never written. */
  function SaveAsWritten(s: Session, file: seq<Row>, now: int): (st: Step)
    ensures !Loaded(s) ==> st == Step(s, Some(NoDataset))
    ensures Loaded(s) && IsAnyGroupUnchecked(s.panel.buttons) ==> st == Step(s, Some(Incomplete))
    ensures st.fault.Some?
    ensures st.fault == Some(AttributeError) ==>
      && PyIndexOk(s.cursor, |file|) && PyIndexOk(s.cursor, |s.filePaths|)
      && |st.session.table| == |file|
      && (forall j :: 0 <= j < |file| && j != PyIndex(s.cursor, |file|) ==> st.session.table[j] == file[j])
      && RelativePath(s.filePaths[PyIndex(s.cursor, |s.filePaths|)], s.root).Success?
      && st.session.table[PyIndex(s.cursor, |file|)] ==
           NewRow(s.cursor, RelativePath(s.filePaths[PyIndex(s.cursor, |s.filePaths|)], s.root).value, s.panel.sel, now)
  {
    if !Loaded(s) then Step(s, Some(NoDataset))
    else if IsAnyGroupUnchecked(s.panel.buttons) then Step(s, Some(Incomplete))
    else if !PyIndexOk(s.cursor, |s.filePaths|) then Step(s, Some(IndexError))
    else
      match RelativePath(s.filePaths[PyIndex(s.cursor, |s.filePaths|)], s.root)
      case Failure(e) => Step(s, Some(e))
      case Success(rel) =>
        match CommitRow(file, s.cursor, NewRow(s.cursor, rel, s.panel.sel, now))
        case Failure(e) => Step(s.(table := file), Some(e))
        case Success(t) => Step(s.(table := t), Some(AttributeError))
  }

  /** As written, a complete save on an aligned dataset whose record file has
      a row per image gets past every check and raises `AttributeError`. */
  lemma SaveAsWrittenRaises(s: Session, file: seq<Row>, now: int)
    requires Inv(s) && Loaded(s)
    requires !IsAnyGroupUnchecked(s.panel.buttons)
    requires |file| == |s.table|
    ensures SaveAsWritten(s, file, now).fault == Some(AttributeError)
  {
    assert Aligned(s);
    var k := s.cursor;
    assert PyIndex(k, |s.filePaths|) == k && PyIndexOk(k, |file|);
    var rel := s.table[k].path;
    assert RelativePath(s.filePaths[k], s.root) == Success(rel);
    var row := NewRow(k, rel, s.panel.sel, now);
    assert CommitRow(file, k, row).Success?;
  }

  /** As written, and when the session outlives the first save's
      `AttributeError` (PyQt5 before 5.5, or an installed excepthook), of two
      saves to different images only the second survives: the file is never
      written, so the second save reads back the file's row for the first
      image and overwrites the first save in memory. */
  lemma OnlyLastSaveSurvives(s: Session, file: seq<Row>, now1: int, j: nat, now2: int)
    requires 0 <= s.cursor < |file| && j < |file| && j != s.cursor
    requires SaveAsWritten(s, file, now1).fault == Some(AttributeError)
    requires SaveAsWritten(SaveAsWritten(s, file, now1).session.(cursor := j), file, now2).fault == Some(AttributeError)
    ensures var t := SaveAsWritten(SaveAsWritten(s, file, now1).session.(cursor := j), file, now2).session.table;
      t[s.cursor] == file[s.cursor] && t[j].id == j && t[j].lastModified == now2
  {
  }

  /** Saving as intended keeps both: a second save to another image leaves
      the first saved row in place. */
  lemma SuccessiveSavesBothKept(s: Session, now1: int, j: nat, now2: int)
    requires 0 <= s.cursor < |s.table| && j < |s.table| && j != s.cursor
    requires SaveStep(s, now1).fault.None?
    requires SaveStep(SaveStep(s, now1).session.(cursor := j), now2).fault.None?
    ensures var t := SaveStep(SaveStep(s, now1).session.(cursor := j), now2).session.table;
      t[s.cursor] == Save(s, now1).value[s.cursor] && t[s.cursor].lastModified == now1
      && t[j].id == j && t[j].lastModified == now2
  {
  }

  /** Move the cursor for a navigation handler: one step forward or back, or
      to the newest record, which raises `ValueError` on an empty table. */
  function Move(s: Session, dir: Direction): (r: Result<Session, Fault>)
    ensures r.Success? ==> r.value == s.(cursor := r.value.cursor)
  {
    match dir
    case Forward => Success(s.(cursor := Next(s.cursor, |s.filePaths|)))
    case Backward => Success(s.(cursor := Previous(s.cursor, |s.filePaths|)))
    case Newest =>
      match MostRecent(s.table)
      case Failure(e) => Failure(e)
      case Success(k) => Success(s.(cursor := k))
  }

  /** The navigation handlers with line 208 corrected: move the cursor, then
      show the image there. Forward and back step the cursor with wrap-around;
      the jump to the newest record goes to the row `MostRecent` picks and
      raises before moving when the table is empty. */
  function Navigate(s: Session, dir: Direction): (st: Step)
    ensures st.session.table == s.table
    ensures dir == Forward ==> st.session.cursor == Next(s.cursor, |s.filePaths|)
    ensures dir == Backward ==> st.session.cursor == Previous(s.cursor, |s.filePaths|)
    ensures dir == Newest && |s.table| == 0 ==> st == Step(s, Some(ValueError))
    ensures dir == Newest && |s.table| > 0 ==> st.session.cursor == MostRecent(s.table).value
  {
    match Move(s, dir)
    case Failure(e) => Step(s, Some(e))
    case Success(s2) => Show(s2)
  }

  /** The navigation handlers as written: the cursor moves, then the image is
      shown as written. */
  function NavigateAsWritten(s: Session, dir: Direction): (st: Step)
    ensures st.session.table == s.table
  {
    match Move(s, dir)
    case Failure(e) => Step(s, Some(e))
    case Success(s2) => ShowAsWritten(s2)
  }

  /** As written, navigating on a loaded dataset with a table moves the
      cursor but raises `ValueError` before the selection state is reloaded. */
  lemma NavigateAsWrittenNeverReloads(s: Session, dir: Direction)
    requires Inv(s) && Loaded(s)
    ensures NavigateAsWritten(s, dir).fault == Some(ValueError)
    ensures NavigateAsWritten(s, dir).session.panel == s.panel
    ensures NavigateAsWritten(s, dir).session.cursor == Navigate(s, dir).session.cursor
  {
    var s2 := Move(s, dir).value;
    ShowAsWrittenNeverReloads(s2);
  }

  /** Showing the image at an aligned cursor cannot fail and leaves the
      selection state consistent. */
  lemma ShowAligned(s: Session)
    requires Aligned(s)
    ensures Show(s).fault.None?
    ensures Aligned(Show(s).session) && Consistent(Show(s).session.panel)
  {
    var row := s.table[s.cursor];
    assert RowOk(row);
    assert row.annotated == Yes ==> InDomains(row);
  }

  /** Opening a dataset that has no record file yet, from a state whose
      cursor is not negative, establishes the invariant whenever it ends
      without a fault, and it does end without one when the cursor is inside
      the catalogue and every image path contains the folder name. */
  lemma OpenFreshEstablishesInv(s: Session, text: string, walk: seq<DirListing>)
    requires 0 <= s.cursor
    ensures var st := Open(s, text, walk, None);
      st.fault.None? ==> Inv(st.session)
    ensures s.cursor < |Scan(walk)| && InitTable(CataloguePaths(walk), text).Success? ==>
      Open(s, text, walk, None).fault.None?
  {
    var paths := CataloguePaths(walk);
    if |Scan(walk)| > 0 && InitTable(paths, text).Success? {
      var rows := InitTable(paths, text).value;
      var s2 := s.(root := text, filePaths := paths, fileNames := CatalogueNames(walk), table := rows);
      assert Open(s, text, walk, None) == Show(s2);
      if s.cursor < |paths| {
        InitTableRowsOk(paths, text);
        assert Aligned(s2);
        ShowAligned(s2);
      } else {
        assert Show(s2).fault == Some(IndexError);
      }
    }
  }

  /** The cursor -1 that Previous leaves before any folder is opened, with its
      `IndexError`, survives an open when the session outlives that exception
      (PyQt5 before 5.5, or an installed excepthook): the fresh open succeeds,
      since Python reads index -1 as the last image, yet the invariant fails,
      and a complete save then stores id -1 in the last row. */
  lemma OpenFromMinusOneMisaligns(s: Session, text: string, walk: seq<DirListing>, p: Panel, now: int)
    requires s.cursor == -1
    requires |Scan(walk)| > 0 && InitTable(CataloguePaths(walk), text).Success?
    requires !IsAnyGroupUnchecked(p.buttons)
    ensures Navigate(Start, Backward) == Step(Start.(cursor := -1), Some(IndexError))
    ensures var st := Open(s, text, walk, None);
      st.fault.None? && !Inv(st.session)
    ensures var st := Open(s, text, walk, None).session.(panel := p);
      var n := |Scan(walk)|;
      Save(st, now).Success? && Save(st, now).value[n - 1].id == -1
  {
  }

  /** Clicks keep the invariant. */
  lemma ClickKeepsInv(s: Session, id: int)
    requires IsButtonId(id)
    requires Inv(s)
    ensures Inv(ClickButton(s, id).session)
  {
    if Loaded(s) {
      ClickKeepsConsistent(s.panel, id);
    }
  }

  /** With every group checked, the attributes all hold legal values. */
  lemma CompleteMeansInDomains(p: Panel, row: Row)
    requires Consistent(p) && !IsAnyGroupUnchecked(p.buttons)
    requires forall g :: row.Attribute(g) == p.sel.Get(g)
    ensures InDomains(row)
  {
    forall g ensures row.Attribute(g) in Values(g) {
      assert p.buttons.Get(g).Some?;
    }
    AttributesInDomains(row);
  }

  /** On a loaded dataset with every group checked, saving succeeds. */
  lemma SaveSucceedsWhenComplete(s: Session, now: int)
    requires Inv(s) && Loaded(s)
    requires !IsAnyGroupUnchecked(s.panel.buttons)
    ensures Save(s, now).Success?
  {
    assert RelativePath(s.filePaths[s.cursor], s.root) == Success(s.table[s.cursor].path);
  }

  /** Saving keeps the invariant, and the saved row is legally annotated. */
  lemma SaveKeepsInv(s: Session, now: int)
    requires Inv(s)
    ensures Inv(SaveStep(s, now).session)
  {
    var r := Save(s, now);
    if r.Success? {
      var t := r.value;
      var row := t[s.cursor];
      CompleteMeansInDomains(s.panel, row);
      assert RowOk(row);
      var s2 := s.(table := t);
      forall i | 0 <= i < |t|
        ensures t[i].id == i && RowOk(t[i]) && RelativePath(s.filePaths[i], s.root) == Success(t[i].path)
      {
        if i != s.cursor {
          assert t[i] == s.table[i];
        }
      }
      assert Aligned(s2);
    }
  }

  /** Navigation on a loaded dataset never fails and keeps the invariant; the
      cursor therefore always stays inside the catalogue. */
  lemma NavigateKeepsInv(s: Session, dir: Direction)
    requires Inv(s) && Loaded(s)
    ensures Navigate(s, dir).fault.None?
    ensures Inv(Navigate(s, dir).session) && 0 <= Navigate(s, dir).session.cursor < |s.filePaths|
  {
    var n := |s.filePaths|;
    match dir
    case Forward => ShowAligned(s.(cursor := Next(s.cursor, n)));
    case Backward => ShowAligned(s.(cursor := Previous(s.cursor, n)));
    case Newest =>
      var k := MostRecent(s.table).value;
      ShowAligned(s.(cursor := k));
  }

  /** Saving and then reloading the saved row restores exactly the selection
      state that was saved: the same buttons and the same attributes. */
  lemma SaveReloadRoundTrip(s: Session, now: int, q: Panel)
    requires Inv(s) && Loaded(s)
    requires !IsAnyGroupUnchecked(s.panel.buttons)
    ensures Save(s, now).Success?
    ensures Reload(q, Save(s, now).value[s.cursor]) == Success(s.panel)
  {
    SaveSucceedsWhenComplete(s, now);
    ReloadRestores(s.panel, q, Save(s, now).value[s.cursor]);
  }

  /** A save stamped later than every earlier save makes the saved row the one
      the jump to the newest record selects. */
  lemma SavedRowIsNewest(s: Session, now: int)
    requires Inv(s) && Loaded(s)
    requires Save(s, now).Success?
    requires forall i :: 0 <= i < |s.table| ==> s.table[i].lastModified < now
    ensures MostRecent(Save(s, now).value) == Success(s.cursor)
  {
    var t := Save(s, now).value;
    forall j | 0 <= j < |t| && j != s.cursor
      ensures t[j].lastModified < t[s.cursor].lastModified
    {
      assert t[j] == s.table[j];
    }
    MostRecentFindsNewest(t, s.cursor);
  }

  /** After such a save, navigating to the newest record returns to the saved
      image. */
  lemma SaveThenNewest(s: Session, now: int)
    requires Inv(s) && Loaded(s)
    requires !IsAnyGroupUnchecked(s.panel.buttons)
    requires forall i :: 0 <= i < |s.table| ==> s.table[i].lastModified < now
    ensures SaveStep(s, now).fault.None?
    ensures Navigate(SaveStep(s, now).session, Newest).session.cursor == s.cursor
  {
    SaveSucceedsWhenComplete(s, now);
    SavedRowIsNewest(s, now);
    var s2 := s.(table := Save(s, now).value);
    assert SaveStep(s, now).session == s2;
    NewestMovesTo(s2, s.cursor);
  }

  /** The jump to the newest record moves the cursor to the row `MostRecent`
      picks. */
  lemma NewestMovesTo(s: Session, k: nat)
    requires MostRecent(s.table) == Success(k)
    ensures Navigate(s, Newest).session.cursor == k
  {
    assert Navigate(s, Newest) == Show(s.(cursor := k));
  }

  /** An annotated row whose illumination column is empty is one reloading
      rejects. */
  lemma EmptyIlluminationRejected(row: Row)
    requires row.annotated == Yes && row.illumination == ""
    ensures ReloadButtons(row) == Failure(ValueError)
  {
    assert "" !in Values(Illumination);
  }

  /** Saving when the illumination attribute is empty, as it always is when
      clicks are handled as written, stores a row that reloading rejects with
      `ValueError`. */
  lemma SaveWithoutIlluminationCannotReload(s: Session, now: int)
    requires s.panel.sel.illumination == ""
    requires Save(s, now).Success?
    ensures var row := Save(s, now).value[PyIndex(s.cursor, |s.table|)];
      row.illumination == "" && ReloadButtons(row) == Failure(ValueError)
  {
    var row := Save(s, now).value[PyIndex(s.cursor, |s.table|)];
    assert row.Attribute(Illumination) == s.panel.sel.Get(Illumination);
    EmptyIlluminationRejected(row);
  }
}

=== FILE: posix_path.dfy ===
/** The parts of Python's `str.split` and `posixpath` (`join`, `basename`,
    `splitext`) and `str.lower` that the annotator relies on, with `/` as the
    path separator. */
module PosixPath {
  import opened Seqs

  const Sep: char := '/'

  /** The pieces of a string joined back with `sep` between consecutive pieces. */
  function Intercalate(parts: seq<string>, sep: char): string
    requires |parts| >= 1
  {
    if |parts| == 1 then parts[0] else parts[0] + [sep] + Intercalate(parts[1..], sep)
  }

  /** Python's `s.split(sep)` for a one-character separator: one more piece than
      there are separators, none of them containing the separator. */
  function Split(s: string, sep: char): (parts: seq<string>)
    ensures |parts| >= 1
    ensures forall i :: 0 <= i < |parts| ==> sep !in parts[i]
    decreases |s|
  {
    if |s| == 0 then [""]
    else
      var rest := Split(s[1..], sep);
      if s[0] == sep then [""] + rest
      else [[s[0]] + rest[0]] + rest[1..]
  }

  /** Splitting and re-joining gives the original string back. */
  lemma {:induction false} SplitIntercalate(s: string, sep: char)
    ensures Intercalate(Split(s, sep), sep) == s
    decreases |s|
  {
    if |s| > 0 {
      var rest := Split(s[1..], sep);
      SplitIntercalate(s[1..], sep);
      if s[0] == sep {
        assert ([""] + rest)[1..] == rest;
      } else {
        var parts := [[s[0]] + rest[0]] + rest[1..];
        if |rest| > 1 {
          assert parts[1..] == rest[1..];
          calc {
            Intercalate(parts, sep);
            ([s[0]] + rest[0]) + [sep] + Intercalate(rest[1..], sep);
            [s[0]] + (rest[0] + [sep] + Intercalate(rest[1..], sep));
            [s[0]] + s[1..];
          }
        }
        assert [s[0]] + s[1..] == s;
      }
    }
  }

  /** Splitting a string that starts with the separator. */
  lemma SplitSepFirst(t: string, sep: char)
    ensures Split([sep] + t, sep) == [""] + Split(t, sep)
  {
    assert ([sep] + t)[1..] == t;
  }

  /** Splitting a string that starts with another character. */
  lemma SplitCharFirst(c: char, t: string, sep: char)
    requires c != sep
    ensures var rest := Split(t, sep); Split([c] + t, sep) == [[c] + rest[0]] + rest[1..]
  {
    assert ([c] + t)[1..] == t;
  }

  /** Joining pieces whose first piece is empty starts with the separator. */
  lemma IntercalateEmptyHead(parts: seq<string>, sep: char)
    requires |parts| >= 2 && parts[0] == ""
    ensures Intercalate(parts, sep) == [sep] + Intercalate(parts[1..], sep)
  {
  }

  /** Joining pieces whose first piece is nonempty starts with that piece's
      first character, followed by the join with that character removed. */
  lemma IntercalateConsHead(parts: seq<string>, sep: char)
    requires |parts| >= 1 && |parts[0]| > 0
    ensures var shorter := [parts[0][1..]] + parts[1..];
      Intercalate(parts, sep) == [parts[0][0]] + Intercalate(shorter, sep)
  {
    var shorter := [parts[0][1..]] + parts[1..];
    assert shorter[1..] == parts[1..];
    assert parts[0] == [parts[0][0]] + parts[0][1..];
  }

  /** Joining separator-free pieces and splitting again gives the pieces back,
      so `Split` and `Intercalate` are inverse to each other. */
  lemma {:induction false} IntercalateSplit(parts: seq<string>, sep: char)
    requires |parts| >= 1
    requires forall i :: 0 <= i < |parts| ==> sep !in parts[i]
    ensures Split(Intercalate(parts, sep), sep) == parts
    decreases |parts|, |parts[0]|
  {
    if |parts| == 1 {
      SplitNoSep(parts[0], sep);
    } else if |parts[0]| == 0 {
      IntercalateSplit(parts[1..], sep);
      IntercalateEmptyHead(parts, sep);
      SplitSepFirst(Intercalate(parts[1..], sep), sep);
      assert [""] + parts[1..] == parts;
    } else {
      var c := parts[0][0];
      var shorter := [parts[0][1..]] + parts[1..];
      assert forall i :: 0 <= i < |shorter| ==> sep !in shorter[i] by {
        assert shorter[1..] == parts[1..];
        assert forall x :: x in parts[0][1..] ==> x in parts[0];
      }
      IntercalateSplit(shorter, sep);
      IntercalateConsHead(parts, sep);
      assert c != sep by { assert c in parts[0]; }
      SplitCharFirst(c, Intercalate(shorter, sep), sep);
      assert shorter[1..] == parts[1..];
      assert [c] + shorter[0] == parts[0];
      assert [[c] + shorter[0]] + shorter[1..] == parts;
    }
  }

  /** A string without the separator splits into itself alone. */
  lemma {:induction false} SplitNoSep(s: string, sep: char)
    requires sep !in s
    ensures Split(s, sep) == [s]
    decreases |s|
  {
    if |s| > 0 {
      SplitNoSep(s[1..], sep);
      assert [s[0]] + s[1..] == s;
    }
  }

  /** One step of `posixpath.join(a, *p)`: an absolute piece restarts the path,
      otherwise a separator is inserted unless the path is empty or already ends
      with one. */
  function JoinStep(path: string, b: string): string {
    if |b| > 0 && b[0] == Sep then b
    else if path == [] || path[|path| - 1] == Sep then path + b
    else path + [Sep] + b
  }

  /** `posixpath.join(*parts)`; Python raises `TypeError` for no arguments, which
      the annotator never does. */
  function Join(parts: seq<string>): string
    requires |parts| >= 1
  {
    if |parts| == 1 then parts[0] else JoinStep(Join(parts[..|parts| - 1]), parts[|parts| - 1])
  }

  /** Appending one more piece to an intercalation. */
  lemma {:induction false} IntercalateSnoc(parts: seq<string>, last: string, sep: char)
    requires |parts| >= 1
    ensures Intercalate(parts + [last], sep) == Intercalate(parts, sep) + [sep] + last
    decreases |parts|
  {
    if |parts| > 1 {
      assert (parts + [last])[1..] == parts[1..] + [last];
      IntercalateSnoc(parts[1..], last, sep);
    }
  }

  /** For non-empty pieces free of the separator, `posixpath.join` is plain
      intercalation with `/`. */
  lemma {:induction false} JoinIsIntercalate(parts: seq<string>)
    requires |parts| >= 1
    requires forall i :: 0 <= i < |parts| ==> |parts[i]| > 0 && Sep !in parts[i]
    ensures Join(parts) == Intercalate(parts, Sep)
    decreases |parts|
  {
    if |parts| > 1 {
      var init := parts[..|parts| - 1];
      var last := parts[|parts| - 1];
      JoinIsIntercalate(init);
      IntercalateSnoc(init, last, Sep);
      assert init + [last] == parts;
      assert |parts[0]| > 0 && Sep !in parts[0];
      assert last[0] != Sep by { assert last[0] in last; }
      IntercalateLastChar(init);
    }
  }

  /** An intercalation of non-empty separator-free pieces does not end in the
      separator and is not empty. */
  lemma {:induction false} IntercalateLastChar(parts: seq<string>)
    requires |parts| >= 1
    requires forall i :: 0 <= i < |parts| ==> |parts[i]| > 0 && Sep !in parts[i]
    ensures var s := Intercalate(parts, Sep); |s| > 0 && s[|s| - 1] != Sep
    decreases |parts|
  {
    var s := Intercalate(parts, Sep);
    if |parts| == 1 {
      assert s[|s| - 1] in parts[0];
    } else {
      IntercalateLastChar(parts[1..]);
      var t := Intercalate(parts[1..], Sep);
      assert s == parts[0] + [Sep] + t;
      assert s[|s| - 1] == t[|t| - 1];
    }
  }

  /** The index of the last occurrence of `c`, or -1 (Python's `str.rfind`). */
  function LastIndex(s: string, c: char): (r: int)
    ensures -1 <= r < |s|
    ensures r >= 0 ==> s[r] == c
    ensures forall j :: r < j < |s| ==> s[j] != c
  {
    if |s| == 0 then -1
    else if s[|s| - 1] == c then |s| - 1
    else LastIndex(s[..|s| - 1], c)
  }

  /** `posixpath.basename`: everything after the last separator. */
  function Basename(p: string): (r: string)
    ensures Sep !in r
    ensures IsSuffix(r, p)
    ensures |r| == |p| || p[|p| - |r| - 1] == Sep
  {
    p[LastIndex(p, Sep) + 1..]
  }

  /** Joining a directory and a separator-free file name and taking the
      basename gives the file name back. */
  lemma BasenameOfJoin(dir: string, name: string)
    requires Sep !in name
    ensures Basename(Join([dir, name])) == name
  {
    assert [dir, name][..1] == [dir];
    assert Join([dir]) == dir;
    var p := Join([dir, name]);
    assert p == JoinStep(dir, name);
    if |name| > 0 && name[0] == Sep {
      assert false;
    } else if dir == [] {
      assert p == name;
      assert LastIndex(p, Sep) == -1;
    } else {
      var x := if dir[|dir| - 1] == Sep then dir else dir + [Sep];
      assert p == x + name;
      assert p[|x| - 1] == Sep;
      assert forall j :: |x| <= j < |p| ==> p[j] == name[j - |x|];
      var r := LastIndex(p, Sep);
      assert r == |x| - 1;
      assert p[|x|..] == name;
    }
  }

  /** The extension `posixpath.splitext` returns: from the last dot of the last
      path component, provided that component has a non-dot character before
      that dot (so `.jpg` and `..jpg` have no extension); otherwise empty. */
  function Extension(p: string): string {
    var sepI := LastIndex(p, Sep);
    var dotI := LastIndex(p, '.');
    if dotI > sepI && exists j :: sepI < j < dotI && p[j] != '.' then p[dotI..] else []
  }

  /** What `splitext` promises of the extension: it is empty, or it is a
      trailing part of the path that starts with its only dot and holds no
      separator; and it is non-empty exactly when the last component has a dot
      with a non-dot character somewhere before it. */
  lemma ExtensionShape(p: string)
    ensures var r := Extension(p);
      r == [] || (r[0] == '.' && IsSuffix(r, p) && '.' !in r[1..] && Sep !in r)
    ensures Extension(p) != [] <==>
      (exists d :: 0 <= d < |p| && p[d] == '.' && '.' !in p[d + 1..] && Sep !in p[d + 1..] &&
        exists j :: 0 <= j < d && p[j] != '.' && Sep !in p[j..d])
  {
  }

  /** ASCII lower-casing of one character. */
  function LowerChar(c: char): char {
    if 'A' <= c <= 'Z' then (c as int + 32) as char else c
  }

  /** `str.lower` restricted to ASCII letters: the result has no upper-case
      letter, each upper-case letter becomes its lower-case partner 32 code
      points later, and every other character is kept. */
  function Lower(s: string): (r: string)
    ensures |r| == |s|
    ensures forall i :: 0 <= i < |s| ==> !('A' <= r[i] <= 'Z')
    ensures forall i :: 0 <= i < |s| && 'A' <= s[i] <= 'Z' ==> r[i] as int == s[i] as int + 32
    ensures forall i :: 0 <= i < |s| && !('A' <= s[i] <= 'Z') ==> r[i] == s[i]
  {
    seq(|s|, i requires 0 <= i < |s| => LowerChar(s[i]))
  }

  /** Lower-casing twice is lower-casing once. */
  lemma LowerIdempotent(s: string)
    ensures Lower(Lower(s)) == Lower(s)
  {
  }
}

=== FILE: records.dfy ===
/** The record table: one row per catalogued image, keyed by position, with the
    portable relative path, the annotated flag, the five attribute values and
    the last-modified stamp. The CSV file is modelled as the table it holds. */
module Records {
  import opened Wrappers
  import opened Seqs
  import opened PosixPath
  import opened Vocabulary

  const Yes: string := "Y"
  const No: string := "N"

  /** One record: the nine columns of `Header`, in order. */
  datatype Row = Row(
    id: int,
    path: string,
    annotated: string,
    inOut: string,
    weather: string,
    timeOfDay: string,
    motionBlur: string,
    illumination: string,
    lastModified: int)
  {
    /** The column holding group `g`'s value. */
    function Attribute(g: Group): string {
      match g
      case InOut => inOut
      case Weather => weather
      case TimeOfDay => timeOfDay
      case Motion => motionBlur
      case Illumination => illumination
    }
  }

  /** The row written for image `i` before it is annotated. */
  function FreshRow(i: nat, relPath: string): Row {
    Row(i, relPath, No, "", "", "", "", "", 0)
  }

  /** Every attribute column holds a value of its group's list. */
  predicate InDomains(r: Row) {
    && r.inOut in Values(InOut)
    && r.weather in Values(Weather)
    && r.timeOfDay in Values(TimeOfDay)
    && r.motionBlur in Values(Motion)
    && r.illumination in Values(Illumination)
  }

  /** A row is in the domains exactly when every group's attribute is one of
      that group's values. */
  lemma AttributesInDomains(r: Row)
    ensures InDomains(r) <==> forall g :: r.Attribute(g) in Values(g)
  {
    if InDomains(r) {
      forall g ensures r.Attribute(g) in Values(g) {
        match g
        case InOut =>
        case Weather =>
        case TimeOfDay =>
        case Motion =>
        case Illumination =>
      }
    }
    assert r.Attribute(InOut) == r.inOut && r.Attribute(Weather) == r.weather;
    assert r.Attribute(TimeOfDay) == r.timeOfDay && r.Attribute(Motion) == r.motionBlur;
    assert r.Attribute(Illumination) == r.illumination;
  }

  /** Every attribute column is empty. */
  predicate Blank(r: Row) {
    r.inOut == "" && r.weather == "" && r.timeOfDay == "" && r.motionBlur == "" && r.illumination == ""
  }

  /** A row is annotated with legal values, or not annotated and blank. */
  predicate RowOk(r: Row) {
    (r.annotated == Yes && InDomains(r)) || (r.annotated == No && Blank(r))
  }

  /** The path segments from the first one equal to the dataset folder's name
      onwards; `list.index` raises `ValueError` when no segment matches. */
  function RelativeSegments(path: string, root: string): Result<seq<string>, Fault> {
    var parts := Split(path, Sep);
    match IndexOf(parts, Basename(root))
    case None => Failure(ValueError)
    case Some(k) => Success(parts[k..])
  }

  /** The truncation fails exactly when no segment is the folder name; otherwise
      it is the trailing part of the segments starting at the first such one. */
  lemma RelativeSegmentsSpec(path: string, root: string)
    ensures var r := RelativeSegments(path, root);
      var parts := Split(path, Sep);
      && (r.Failure? <==> Basename(root) !in parts)
      && (r.Failure? ==> r.error == ValueError)
      && (r.Success? ==> |r.value| >= 1 && r.value[0] == Basename(root))
      && (r.Success? ==> IsSuffix(r.value, parts))
      && (r.Success? ==> Basename(root) !in parts[..|parts| - |r.value|])
  {
    var parts := Split(path, Sep);
    match IndexOf(parts, Basename(root))
    case None =>
    case Some(k) =>
      assert parts[|parts| - |parts[k..]|..] == parts[k..];
      assert parts[..|parts| - |parts[k..]|] == parts[..k];
  }

  /** The portable record key of an image path: the segments from the dataset
      folder's name onwards, joined again. It raises `ValueError` exactly when
      no segment of the path is the folder's name. */
  function RelativePath(path: string, root: string): (r: Result<string, Fault>)
    ensures r.Failure? <==> Basename(root) !in Split(path, Sep)
    ensures r.Failure? ==> r.error == ValueError
  {
    RelativeSegmentsSpec(path, root);
    match RelativeSegments(path, root)
    case Failure(e) => Failure(e)
    case Success(segs) => Success(Join(segs))
  }

  /** The trailing pieces of an intercalation form a trailing part of it, one
      separator after the leading pieces. */
  lemma {:induction false} IntercalateSuffix(parts: seq<string>, k: nat)
    requires k < |parts|
    ensures IsSuffix(Intercalate(parts[k..], Sep), Intercalate(parts, Sep))
    ensures 0 < k ==>
      var s := Intercalate(parts, Sep);
      var t := Intercalate(parts[k..], Sep);
      |t| < |s| && s[|s| - |t| - 1] == Sep
    decreases k
  {
    if 0 < k {
      assert parts[1..][k - 1..] == parts[k..];
      IntercalateSuffix(parts[1..], k - 1);
    }
  }

  /** An intercalation starts with its first piece, followed by the separator
      when more pieces follow. */
  lemma IntercalateStart(parts: seq<string>)
    requires |parts| >= 1
    ensures var s := Intercalate(parts, Sep);
      |parts[0]| <= |s| && s[..|parts[0]|] == parts[0] &&
      (|parts| > 1 ==> |parts[0]| < |s| && s[|parts[0]|] == Sep)
  {
  }

  /** Joining the pieces from position `k` on gives a trailing part of the
      whole intercalation that starts right after a separator and begins with
      piece `k` followed by a separator or the end. Only the joined pieces need
      to be nonempty. */
  lemma JoinedTail(parts: seq<string>, k: nat)
    requires k < |parts|
    requires forall i :: 0 <= i < |parts| ==> Sep !in parts[i]
    requires forall i :: k <= i < |parts| ==> |parts[i]| > 0
    ensures var s := Intercalate(parts, Sep);
      var t := Join(parts[k..]);
      && IsSuffix(t, s)
      && (|t| == |s| || s[|s| - |t| - 1] == Sep)
      && |parts[k]| <= |t| && t[..|parts[k]|] == parts[k]
      && (|t| == |parts[k]| || t[|parts[k]|] == Sep)
  {
    var tail := parts[k..];
    assert forall i :: 0 <= i < |tail| ==> tail[i] == parts[k + i];
    JoinIsIntercalate(tail);
    IntercalateSuffix(parts, k);
    IntercalateStart(tail);
  }

  /** When no segment from the folder's name on is empty (a leading separator
      or doubled separators before it are allowed), the relative path is a
      trailing part of the path that starts at a segment boundary with the
      dataset folder's name. */
  lemma RelativePathIsSuffix(path: string, root: string)
    requires RelativePath(path, root).Success?
    requires forall i :: IndexOf(Split(path, Sep), Basename(root)).value <= i < |Split(path, Sep)| ==>
      |Split(path, Sep)[i]| > 0
    ensures var rel := RelativePath(path, root).value;
      var b := Basename(root);
      && IsSuffix(rel, path)
      && (|rel| == |path| || path[|path| - |rel| - 1] == Sep)
      && |b| <= |rel| && rel[..|b|] == b
      && (|rel| == |b| || rel[|b|] == Sep)
  {
    var parts := Split(path, Sep);
    SplitIntercalate(path, Sep);
    var k := IndexOf(parts, Basename(root)).value;
    JoinedTail(parts, k);
  }

  /** The table a fresh dataset starts with: for each catalogued path, in order,
      a not-annotated blank row carrying its position and relative path. It
      fails with `ValueError` when some path lacks the folder name. */
  function InitTable(paths: seq<string>, root: string): (r: Result<seq<Row>, Fault>)
    ensures r.Success? <==> forall i :: 0 <= i < |paths| ==> RelativePath(paths[i], root).Success?
    ensures r.Failure? ==> r.error == ValueError
    ensures r.Success? ==> |r.value| == |paths|
    ensures r.Success? ==>
      forall i :: 0 <= i < |paths| ==> r.value[i] == FreshRow(i, RelativePath(paths[i], root).value)
  {
    if |paths| == 0 then Success([])
    else
      var init := paths[..|paths| - 1];
      assert paths == init + [paths[|paths| - 1]];
      match InitTable(init, root)
      case Failure(e) =>
        InitTableSnocFails(init, paths[|paths| - 1], root);
        Failure(e)
      case Success(rows) =>
        match RelativePath(paths[|paths| - 1], root)
        case Failure(e) => Failure(e)
        case Success(rel) =>
          InitTableSnoc(init, paths[|paths| - 1], root, rows, rel);
          Success(rows + [FreshRow(|paths| - 1, rel)])
  }

  /** When some path before the last lacks the folder name, so does the whole
      list. */
  lemma InitTableSnocFails(init: seq<string>, last: string, root: string)
    requires exists i :: 0 <= i < |init| && RelativePath(init[i], root).Failure?
    ensures exists i :: 0 <= i < |init + [last]| && RelativePath((init + [last])[i], root).Failure?
  {
    var i :| 0 <= i < |init| && RelativePath(init[i], root).Failure?;
    assert (init + [last])[i] == init[i];
  }

  /** The fresh rows of all but the last path, followed by the last path's
      fresh row, are the fresh rows of the whole list. */
  lemma InitTableSnoc(init: seq<string>, last: string, root: string, rows: seq<Row>, rel: string)
    requires |rows| == |init|
    requires forall i :: 0 <= i < |init| ==>
      RelativePath(init[i], root).Success? && rows[i] == FreshRow(i, RelativePath(init[i], root).value)
    requires RelativePath(last, root) == Success(rel)
    ensures forall i :: 0 <= i < |init + [last]| ==> RelativePath((init + [last])[i], root).Success?
    ensures forall i :: 0 <= i < |init + [last]| ==>
      (rows + [FreshRow(|init|, rel)])[i] == FreshRow(i, RelativePath((init + [last])[i], root).value)
  {
    forall i | 0 <= i < |init + [last]|
      ensures RelativePath((init + [last])[i], root).Success?
      ensures (rows + [FreshRow(|init|, rel)])[i] == FreshRow(i, RelativePath((init + [last])[i], root).value)
    {
      if i < |init| {
        assert (init + [last])[i] == init[i];
      }
    }
  }

  /** A fresh table is well formed: positions match ids and every row is blank. */
  lemma InitTableRowsOk(paths: seq<string>, root: string)
    requires InitTable(paths, root).Success?
    ensures forall i :: 0 <= i < |paths| ==>
      InitTable(paths, root).value[i].id == i && RowOk(InitTable(paths, root).value[i])
  {
  }

  /** An element of the list `init_metadata_csv` builds in memory: one of the
      header names the list starts with, or an appended row. */
  datatype Entry = HeaderCell(name: string) | DataRow(row: Row)

  /** The nine header names, as the list holds them before any folder is opened. */
  const HeaderCells: seq<Entry> := seq(|Header|, i requires 0 <= i < |Header| => HeaderCell(Header[i]))

  /** The rows of a table as list elements. */
  function DataRows(table: seq<Row>): (es: seq<Entry>)
    ensures |es| == |table|
    ensures forall i :: 0 <= i < |table| ==> es[i] == DataRow(table[i])
  {
    seq(|table|, i requires 0 <= i < |table| => DataRow(table[i]))
  }

  /** No row of the list sits at the position its id names. */
  predicate NoRowAtItsId(es: seq<Entry>) {
    forall i :: 0 <= i < |es| ==> es[i].HeaderCell? || es[i].row.id != i
  }

  /** `init_metadata_csv` as written for a dataset without a record file: the
      rows are appended to whatever list the program already holds (the nine
      header names at first, more after every earlier open), and that list is
      what the program then indexes by image position. */
  function InitTableAsWritten(current: seq<Entry>, paths: seq<string>, root: string): (r: Result<seq<Entry>, Fault>)
    ensures r.Success? <==> InitTable(paths, root).Success?
    ensures r.Success? ==> |r.value| == |current| + |paths| && r.value[..|current|] == current
    ensures r.Success? ==> forall i :: 0 <= i < |paths| ==> r.value[|current| + i] == DataRow(InitTable(paths, root).value[i])
  {
    match InitTable(paths, root)
    case Failure(e) => Failure(e)
    case Success(rows) => Success(current + DataRows(rows))
  }

  /** With anything in front of them that is not a row at its own position,
      no image position reads its own row: the first positions read what was
      there, and every later one reads the row of an earlier image. */
  lemma InitTableAsWrittenMisaligned(current: seq<Entry>, paths: seq<string>, root: string)
    requires InitTable(paths, root).Success?
    requires |current| > 0 && NoRowAtItsId(current)
    ensures var es := InitTableAsWritten(current, paths, root).value;
      var rows := InitTable(paths, root).value;
      forall i :: 0 <= i < |paths| ==> es[i] != DataRow(rows[i])
  {
    var es := InitTableAsWritten(current, paths, root).value;
    var rows := InitTable(paths, root).value;
    InitTableRowsOk(paths, root);
    forall i | 0 <= i < |paths|
      ensures es[i] != DataRow(rows[i])
    {
      if i < |current| {
        assert es[i] == es[..|current|][i] == current[i];
      } else {
        assert es[|current| + (i - |current|)] == DataRow(rows[i - |current|]);
      }
    }
  }

  /** The header names meet the condition, and appending a fresh table keeps
      it, so every open without a record file leaves the list misaligned. */
  lemma AppendedTableStaysMisaligned(current: seq<Entry>, paths: seq<string>, root: string)
    requires InitTable(paths, root).Success?
    requires |current| > 0 && NoRowAtItsId(current)
    ensures NoRowAtItsId(HeaderCells)
    ensures NoRowAtItsId(InitTableAsWritten(current, paths, root).value)
  {
    var es := InitTableAsWritten(current, paths, root).value;
    var rows := InitTable(paths, root).value;
    InitTableRowsOk(paths, root);
    forall i | 0 <= i < |es| && es[i].DataRow?
      ensures es[i].row.id != i
    {
      if i < |current| {
        assert es[i] == es[..|current|][i] == current[i];
      } else {
        assert es[|current| + (i - |current|)] == DataRow(rows[i - |current|]);
      }
    }
  }

  /** Replacing the row at Python index `i` (negative counts from the end);
      `IndexError` when there is no such row. Every other row is kept. */
  function CommitRow(table: seq<Row>, i: int, row: Row): (r: Result<seq<Row>, Fault>)
    ensures r.Failure? <==> !PyIndexOk(i, |table|)
    ensures r.Failure? ==> r.error == IndexError
    ensures r.Success? ==> |r.value| == |table| && r.value[PyIndex(i, |table|)] == row
    ensures r.Success? ==> forall j :: 0 <= j < |table| && j != PyIndex(i, |table|) ==> r.value[j] == table[j]
  {
    if PyIndexOk(i, |table|) then Success(table[PyIndex(i, |table|) := row]) else Failure(IndexError)
  }

  /** The number of annotated rows the status label reports. */
  function AnnotatedCount(table: seq<Row>): (n: nat)
    ensures n <= |table|
    ensures n == 0 <==> forall i :: 0 <= i < |table| ==> table[i].annotated != Yes
    ensures n == |table| <==> forall i :: 0 <= i < |table| ==> table[i].annotated == Yes
  {
    if |table| == 0 then 0
    else
      assert forall i :: 1 <= i < |table| ==> table[1..][i - 1] == table[i];
      AnnotatedCount(table[1..]) + (if table[0].annotated == Yes then 1 else 0)
  }

  /** Replacing one row changes the annotated count by at most the flag change
      of that row. */
  lemma {:induction false} AnnotatedCountAfterReplace(table: seq<Row>, i: nat, row: Row)
    requires i < |table|
    ensures AnnotatedCount(table[i := row]) + (if table[i].annotated == Yes then 1 else 0)
         == AnnotatedCount(table) + (if row.annotated == Yes then 1 else 0)
    decreases i
  {
    if i > 0 {
      assert table[i := row][1..] == table[1..][i - 1 := row];
      AnnotatedCountAfterReplace(table[1..], i - 1, row);
    }
  }

  /** How many values Python's unpacking finds in a list element: a header
      name is a string and unpacks into its characters; a row unpacks into its
      nine columns. */
  function Width(e: Entry): nat {
    match e
    case HeaderCell(name) => |name|
    case DataRow(_) => |Header|
  }

  /** The third value of an element that unpacks into exactly three. */
  function ThirdValue(e: Entry): string
    requires Width(e) == 3
  {
    if e.HeaderCell? then [e.name[2]] else ""
  }

  /** The count as written: `for _, _, annotated in header_list` unpacks every
      element into three names, which raises `ValueError` at the first element
      of any other width. */
  function AnnotatedCountAsWritten(es: seq<Entry>): (r: Result<nat, Fault>)
    ensures r.Failure? <==> exists i :: 0 <= i < |es| && Width(es[i]) != 3
    ensures r.Failure? ==> r.error == ValueError
    ensures r.Success? ==> r.value <= |es|
  {
    if |es| == 0 then Success(0)
    else if Width(es[0]) != 3 then Failure(ValueError)
    else
      assert forall i :: 1 <= i < |es| ==> es[1..][i - 1] == es[i];
      match AnnotatedCountAsWritten(es[1..])
      case Failure(e) => Failure(e)
      case Success(n) => Success(n + if ThirdValue(es[0]) == Yes then 1 else 0)
  }

  /** No list the program can hold gets through the count: the header names
      are not three characters long, and every row has nine columns. */
  lemma AnnotatedCountAsWrittenFails(table: seq<Row>)
    ensures AnnotatedCountAsWritten(HeaderCells) == Failure(ValueError)
    ensures |table| > 0 ==> AnnotatedCountAsWritten(DataRows(table)) == Failure(ValueError)
  {
    assert HeaderCells[0] == HeaderCell("id");
    if |table| > 0 {
      assert Width(DataRows(table)[0]) == 9;
    }
  }
}

=== FILE: selection.dfy ===
/** The selection state of the five radio-button groups. Two layers are kept
    apart, as in the program: which button of each group is checked (what the
    completeness check reads and what reloading a record sets), and the five
    string attributes the click handler assigns (what saving writes). */
module Selection {
  import opened Wrappers
  import opened Seqs
  import opened Vocabulary
  import opened Records

  /** The checked position of each button group, if any. */
  datatype Buttons = Buttons(
    inOut: Option<nat>,
    weather: Option<nat>,
    timeOfDay: Option<nat>,
    motion: Option<nat>,
    illumination: Option<nat>)
  {
    function Get(g: Group): Option<nat> {
      match g
      case InOut => inOut
      case Weather => weather
      case TimeOfDay => timeOfDay
      case Motion => motion
      case Illumination => illumination
    }

    /** The group state after checking button `k` of group `g`; an exclusive
        group unchecks its other buttons. */
    function Check(g: Group, k: nat): (b: Buttons)
      ensures b.Get(g) == Some(k)
      ensures forall h :: h != g ==> b.Get(h) == Get(h)
    {
      match g
      case InOut => this.(inOut := Some(k))
      case Weather => this.(weather := Some(k))
      case TimeOfDay => this.(timeOfDay := Some(k))
      case Motion => this.(motion := Some(k))
      case Illumination => this.(illumination := Some(k))
    }
  }

  const NoneChecked: Buttons := Buttons(None, None, None, None, None)

  /** The five attribute strings the click handler assigns. */
  datatype Selection = Selection(
    inOut: string,
    weather: string,
    timeOfDay: string,
    motionBlur: string,
    illumination: string)
  {
    function Get(g: Group): string {
      match g
      case InOut => inOut
      case Weather => weather
      case TimeOfDay => timeOfDay
      case Motion => motionBlur
      case Illumination => illumination
    }
  }

  /** The attributes before any click: all empty. */
  const Unset: Selection := Selection("", "", "", "", "")

  /** `is_any_group_unchecked`: some group has no checked button. */
  function IsAnyGroupUnchecked(b: Buttons): (r: bool)
    ensures r <==> exists g :: b.Get(g).None?
  {
    assert b.Get(InOut) == b.inOut && b.Get(Weather) == b.weather && b.Get(TimeOfDay) == b.timeOfDay;
    assert b.Get(Motion) == b.motion && b.Get(Illumination) == b.illumination;
    b.weather.None? || b.timeOfDay.None? || b.inOut.None? || b.motion.None? || b.illumination.None?
  }

  /** The last entry of a group's list. */
  function Last(g: Group): string {
    Values(g)[|Values(g)| - 1]
  }

  /** `set_indoor_outdoor`: position 0 ("indoor") also sets weather and time of
      day to the last entries of their lists; other positions set only the
      scene; a position past the list raises `IndexError`. */
  function SetIndoorOutdoor(sel: Selection, idx: nat): (r: Result<Selection, Fault>)
    ensures r.Failure? <==> idx >= |Values(InOut)|
    ensures r.Failure? ==> r.error == IndexError
    ensures r.Success? ==>
      r.value.inOut == Values(InOut)[idx] && r.value.motionBlur == sel.motionBlur && r.value.illumination == sel.illumination
    ensures r.Success? && idx == 0 ==> r.value.weather == "etc" && r.value.timeOfDay == "etc"
    ensures r.Success? && idx != 0 ==> r.value.weather == sel.weather && r.value.timeOfDay == sel.timeOfDay
  {
    if idx == 0 then Success(sel.(inOut := Values(InOut)[0], timeOfDay := Last(TimeOfDay), weather := Last(Weather)))
    else if idx < |Values(InOut)| then Success(sel.(inOut := Values(InOut)[idx]))
    else Failure(IndexError)
  }

  /** `handle_button_click` with the illumination branch assigning the
      illumination attribute. Without a dataset it only warns. The id is split
      by `divmod(id, 10)`; group numbers outside 0..4 are ignored and a
      position past the group's list raises `IndexError`. */
  function HandleButtonClick(loaded: bool, sel: Selection, id: int): (r: Result<Selection, Fault>)
    ensures !loaded ==> r == Failure(NoDataset)
    ensures loaded && IsButtonId(id) ==> r.Success?
    ensures loaded && IsButtonId(id) ==>
      var d := Decode(id); r.value.Get(Groups[d.grp]) == Values(Groups[d.grp])[d.pos]
    ensures loaded && !(0 <= id < 10 * |Groups|) ==> r == Success(sel)
  {
    if !loaded then Failure(NoDataset)
    else
      var d := Decode(id);
      assert IsButtonId(id) ==> 0 <= d.grp < |Groups| && d.pos < |Values(Groups[d.grp])| by {
        if IsButtonId(id) { DecodeButtonId(id); }
      }
      if d.grp == 0 then SetIndoorOutdoor(sel, d.pos)
      else if d.grp == 1 then
        (if d.pos < |Values(Weather)| then Success(sel.(weather := Values(Weather)[d.pos])) else Failure(IndexError))
      else if d.grp == 2 then
        (if d.pos < |Values(TimeOfDay)| then Success(sel.(timeOfDay := Values(TimeOfDay)[d.pos])) else Failure(IndexError))
      else if d.grp == 3 then
        (if d.pos < |Values(Motion)| then Success(sel.(motionBlur := Values(Motion)[d.pos])) else Failure(IndexError))
      else if d.grp == 4 then
        (if d.pos < |Values(Illumination)| then Success(sel.(illumination := Values(Illumination)[d.pos])) else Failure(IndexError))
      else Success(sel)
  }

  /** `handle_button_click` as written: the illumination branch assigns an
      attribute named `illu` that nothing reads, so the illumination attribute
      keeps its value. Everything else is as in `HandleButtonClick`. */
  function HandleButtonClickAsWritten(loaded: bool, sel: Selection, id: int): (r: Result<Selection, Fault>)
    ensures r.Success? ==> r.value.illumination == sel.illumination
    ensures Decode(id).grp != 4 ==> r == HandleButtonClick(loaded, sel, id)
  {
    if loaded && Decode(id).grp == 4 then
      (if Decode(id).pos < |Values(Illumination)| then Success(sel) else Failure(IndexError))
    else HandleButtonClick(loaded, sel, id)
  }

  /** The indoor rule: the first scene button sets the scene to "indoor" and
      weather and time of day to "etc", leaving motion blur and illumination;
      the other scene buttons change the scene alone. */
  lemma IndoorRule(sel: Selection)
    ensures HandleButtonClick(true, sel, Encode(InOut, 0)) ==
      Success(Selection("indoor", "etc", "etc", sel.motionBlur, sel.illumination))
    ensures forall k :: 1 <= k < |Values(InOut)| ==>
      HandleButtonClick(true, sel, Encode(InOut, k)) == Success(sel.(inOut := Values(InOut)[k]))
  {
  }

  /** A click on a registered button changes only the clicked group's attribute,
      except that the indoor button also changes weather and time of day. */
  lemma ClickChangesOnlyItsGroup(sel: Selection, id: int, h: Group)
    requires IsButtonId(id)
    requires h != Groups[Decode(id).grp]
    requires !(id == 0 && (h == Weather || h == TimeOfDay))
    ensures HandleButtonClick(true, sel, id).value.Get(h) == sel.Get(h)
  {
    DecodeButtonId(id);
  }

  /** `manage_checked_buttons`: for an annotated record, check in each group the
      button at the position of the record's value (`list.index`, which raises
      `ValueError` for a value not in the list); otherwise uncheck everything. */
  function ReloadButtons(row: Row): (r: Result<Buttons, Fault>)
    ensures r.Failure? <==> row.annotated == Yes && !InDomains(row)
    ensures r.Failure? ==> r.error == ValueError
    ensures r.Success? && row.annotated == Yes ==>
      forall g :: r.value.Get(g).Some? && r.value.Get(g).value < |Values(g)| &&
        Values(g)[r.value.Get(g).value] == row.Attribute(g)
    ensures r.Success? && row.annotated == Yes ==> forall g :: r.value.Get(g) == IndexOf(Values(g), row.Attribute(g))
    ensures row.annotated != Yes ==> r == Success(NoneChecked)
  {
    if row.annotated == Yes then
      var k0 := IndexOf(Values(InOut), row.inOut);
      var k1 := IndexOf(Values(Weather), row.weather);
      var k2 := IndexOf(Values(TimeOfDay), row.timeOfDay);
      var k3 := IndexOf(Values(Motion), row.motionBlur);
      var k4 := IndexOf(Values(Illumination), row.illumination);
      if k0.None? || k1.None? || k2.None? || k3.None? || k4.None? then Failure(ValueError)
      else
        var b := Buttons(Some(k0.value), Some(k1.value), Some(k2.value), Some(k3.value), Some(k4.value));
        ButtonsMatchRow(row, b);
        Success(b)
    else Success(NoneChecked)
  }

  /** The positions of a record's values, one per group, point back at those values. */
  lemma ButtonsMatchRow(row: Row, b: Buttons)
    requires IndexOf(Values(InOut), row.inOut) == b.inOut && b.inOut.Some?
    requires IndexOf(Values(Weather), row.weather) == b.weather && b.weather.Some?
    requires IndexOf(Values(TimeOfDay), row.timeOfDay) == b.timeOfDay && b.timeOfDay.Some?
    requires IndexOf(Values(Motion), row.motionBlur) == b.motion && b.motion.Some?
    requires IndexOf(Values(Illumination), row.illumination) == b.illumination && b.illumination.Some?
    ensures forall g :: b.Get(g).Some? && b.Get(g).value < |Values(g)| && Values(g)[b.Get(g).value] == row.Attribute(g)
    ensures forall g :: b.Get(g) == IndexOf(Values(g), row.Attribute(g))
  {
    forall g ensures b.Get(g).Some? && b.Get(g).value < |Values(g)| && Values(g)[b.Get(g).value] == row.Attribute(g)
      && b.Get(g) == IndexOf(Values(g), row.Attribute(g)) {
      match g
      case InOut =>
      case Weather =>
      case TimeOfDay =>
      case Motion =>
      case Illumination =>
    }
  }

  /** Two button states that agree on every group are the same. */
  lemma ButtonsEqual(a: Buttons, b: Buttons)
    requires forall g :: a.Get(g) == b.Get(g)
    ensures a == b
  {
    assert a.Get(InOut) == b.Get(InOut) && a.Get(Weather) == b.Get(Weather) && a.Get(TimeOfDay) == b.Get(TimeOfDay);
    assert a.Get(Motion) == b.Get(Motion) && a.Get(Illumination) == b.Get(Illumination);
  }

  /** Two attribute states that agree on every group are the same. */
  lemma SelectionsEqual(a: Selection, b: Selection)
    requires forall g :: a.Get(g) == b.Get(g)
    ensures a == b
  {
    assert a.Get(InOut) == b.Get(InOut) && a.Get(Weather) == b.Get(Weather) && a.Get(TimeOfDay) == b.Get(TimeOfDay);
    assert a.Get(Motion) == b.Get(Motion) && a.Get(Illumination) == b.Get(Illumination);
  }

  /** Copying a record's five columns into a selection copies every group. */
  lemma SelectionMatchesRow(row: Row, s: Selection)
    requires s == Selection(row.inOut, row.weather, row.timeOfDay, row.motionBlur, row.illumination)
    ensures forall g :: s.Get(g) == row.Attribute(g)
  {
    forall g ensures s.Get(g) == row.Attribute(g) {
      match g
      case InOut =>
      case Weather =>
      case TimeOfDay =>
      case Motion =>
      case Illumination =>
    }
  }

  /** The selection state as a whole: the buttons and the attributes. */
  datatype Panel = Panel(buttons: Buttons, sel: Selection)

  const Cleared: Panel := Panel(NoneChecked, Unset)

  /** Every checked button agrees with its group's attribute. */
  ghost predicate Consistent(p: Panel) {
    forall g :: p.buttons.Get(g).Some? ==>
      p.buttons.Get(g).value < |Values(g)| && p.sel.Get(g) == Values(g)[p.buttons.Get(g).value]
  }

  /** `manage_checked_buttons` as written: only the buttons are set from the
      record; the attributes keep whatever the last clicks assigned. */
  function ReloadAsWritten(p: Panel, row: Row): (r: Result<Panel, Fault>)
    ensures r.Success? ==> r.value.sel == p.sel
  {
    match ReloadButtons(row)
    case Failure(e) => Failure(e)
    case Success(b) => Success(Panel(b, p.sel))
  }

  /** Reloading with the attributes taken from the record as well when it is
      annotated, so that the state agrees with what the buttons show. */
  function Reload(p: Panel, row: Row): (r: Result<Panel, Fault>)
    ensures r.Failure? <==> row.annotated == Yes && !InDomains(row)
    ensures r.Success? ==> Consistent(r.value)
    ensures r.Success? && row.annotated == Yes ==>
      forall g :: r.value.sel.Get(g) == row.Attribute(g) && r.value.buttons.Get(g).Some?
  {
    match ReloadButtons(row)
    case Failure(e) => Failure(e)
    case Success(b) =>
      if row.annotated == Yes then
        var s := Selection(row.inOut, row.weather, row.timeOfDay, row.motionBlur, row.illumination);
        SelectionMatchesRow(row, s);
        Success(Panel(b, s))
      else Success(Panel(b, p.sel))
  }

  /** A click on a registered button as the widget toolkit delivers it: the
      clicked button becomes checked, then the handler runs; the indoor rule
      also checks buttons 17 and 24. */
  function Click(p: Panel, loaded: bool, id: int): (q: Panel)
    requires IsButtonId(id)
    ensures var d := Decode(id); q.buttons.Get(Groups[d.grp]) == Some(d.pos)
    ensures loaded && id == 0 ==>
      q.buttons.weather == Some(|Values(Weather)| - 1) && q.buttons.timeOfDay == Some(|Values(TimeOfDay)| - 1)
    ensures forall h :: h != Groups[Decode(id).grp] && !(loaded && id == 0 && (h == Weather || h == TimeOfDay)) ==>
      q.buttons.Get(h) == p.buttons.Get(h)
    ensures !loaded ==> q.sel == p.sel
    ensures loaded ==> HandleButtonClick(loaded, p.sel, id) == Success(q.sel)
  {
    DecodeButtonId(id);
    var d := Decode(id);
    var b := p.buttons.Check(Groups[d.grp], d.pos);
    match HandleButtonClick(loaded, p.sel, id)
    case Failure(_) => Panel(b, p.sel)
    case Success(s) =>
      if id == 0 then
        Panel(b.Check(Weather, |Values(Weather)| - 1).Check(TimeOfDay, |Values(TimeOfDay)| - 1), s)
      else Panel(b, s)
  }

  /** `Click` with the handler as written. */
  function ClickAsWritten(p: Panel, loaded: bool, id: int): (q: Panel)
    requires IsButtonId(id)
    ensures var d := Decode(id); q.buttons.Get(Groups[d.grp]) == Some(d.pos)
    ensures loaded && id == 0 ==>
      q.buttons.weather == Some(|Values(Weather)| - 1) && q.buttons.timeOfDay == Some(|Values(TimeOfDay)| - 1)
    ensures forall h :: h != Groups[Decode(id).grp] && !(loaded && id == 0 && (h == Weather || h == TimeOfDay)) ==>
      q.buttons.Get(h) == p.buttons.Get(h)
    ensures !loaded ==> q.sel == p.sel
    ensures loaded ==> HandleButtonClickAsWritten(loaded, p.sel, id) == Success(q.sel)
  {
    DecodeButtonId(id);
    var d := Decode(id);
    var b := p.buttons.Check(Groups[d.grp], d.pos);
    match HandleButtonClickAsWritten(loaded, p.sel, id)
    case Failure(_) => Panel(b, p.sel)
    case Success(s) =>
      if id == 0 then
        Panel(b.Check(Weather, |Values(Weather)| - 1).Check(TimeOfDay, |Values(TimeOfDay)| - 1), s)
      else Panel(b, s)
  }

  /** With a dataset loaded, a click keeps every checked button in agreement
      with its attribute. */
  lemma ClickKeepsConsistent(p: Panel, id: int)
    requires IsButtonId(id)
    requires Consistent(p)
    ensures Consistent(Click(p, true, id))
  {
    DecodeButtonId(id);
    var d := Decode(id);
    var g := Groups[d.grp];
    var q := Click(p, true, id);
    var s := HandleButtonClick(true, p.sel, id).value;
    forall h | q.buttons.Get(h).Some?
      ensures q.buttons.Get(h).value < |Values(h)| && q.sel.Get(h) == Values(h)[q.buttons.Get(h).value]
    {
      if h == g {
        assert q.sel.Get(h) == s.Get(h);
      } else if id == 0 && (h == Weather || h == TimeOfDay) {
      } else {
        ClickChangesOnlyItsGroup(p.sel, id, h);
      }
    }
  }

  /** As written, clicking an illumination button checks it while the
      illumination attribute stays empty, so the buttons and the attributes
      disagree. */
  lemma ClickAsWrittenLosesIllumination()
    ensures Consistent(Cleared)
    ensures var q := ClickAsWritten(Cleared, true, Encode(Illumination, 0));
      q.buttons.illumination == Some(0) && q.sel.illumination == "" && !Consistent(q)
  {
    var q := ClickAsWritten(Cleared, true, Encode(Illumination, 0));
    assert q.buttons.Get(Illumination) == Some(0);
  }

  /** As written, reloading an annotated record into a fresh state checks all
      five groups, so saving is allowed, while the attributes stay empty and
      disagree with every checked button. */
  lemma ReloadAsWrittenLeavesStaleAttributes()
    ensures var row := Row(0, "ds/a.jpg", Yes, "outdoor", "clear", "dawn", "o", "bright", 20230306120000);
      var r := ReloadAsWritten(Cleared, row);
      r.Success? && !IsAnyGroupUnchecked(r.value.buttons) && r.value.sel == Unset && !Consistent(r.value)
  {
    var row := Row(0, "ds/a.jpg", Yes, "outdoor", "clear", "dawn", "o", "bright", 20230306120000);
    var q := ReloadAsWritten(Cleared, row).value;
    assert q.buttons.Get(InOut).Some?;
    assert Values(InOut)[q.buttons.Get(InOut).value] == "outdoor";
  }

  /** As written, no click ever changes the illumination attribute. */
  lemma ClickAsWrittenKeepsIllumination(p: Panel, loaded: bool, id: int)
    requires IsButtonId(id)
    ensures ClickAsWritten(p, loaded, id).sel.illumination == p.sel.illumination
  {
  }

  /** The position of a listed value is where the list holds it. */
  lemma IndexOfListed(g: Group, k: nat)
    requires k < |Values(g)|
    ensures IndexOf(Values(g), Values(g)[k]) == Some(k)
  {
    var r := IndexOf(Values(g), Values(g)[k]);
    assert Values(g)[k] in Values(g);
    if r.value < k {
      ValuesDistinct(g, r.value, k);
    }
  }

  /** Reloading a record whose attributes are those of a consistent, fully
      checked state gives that state back. */
  lemma ReloadRestores(p: Panel, q: Panel, row: Row)
    requires Consistent(p) && !IsAnyGroupUnchecked(p.buttons)
    requires row.annotated == Yes
    requires forall g :: row.Attribute(g) == p.sel.Get(g)
    ensures Reload(q, row) == Success(p)
  {
    forall g ensures p.buttons.Get(g).Some? && IndexOf(Values(g), row.Attribute(g)) == p.buttons.Get(g) {
      IndexOfListed(g, p.buttons.Get(g).value);
    }
    ButtonsEqual(ReloadButtons(row).value, p.buttons);
    var s := Selection(row.inOut, row.weather, row.timeOfDay, row.motionBlur, row.illumination);
    SelectionMatchesRow(row, s);
    SelectionsEqual(s, p.sel);
  }
}

=== FILE: seqs.dfy ===
/** Generic facts about sequences used across the annotator model. */
module Seqs {
  import opened Wrappers

  /** `a` is a trailing part of `b`. */
  predicate IsSuffix<T(==)>(a: seq<T>, b: seq<T>) {
    |a| <= |b| && b[|b| - |a|..] == a
  }

  /** Python's `list.index`: the first position holding `x`, or `None` where
      Python raises `ValueError`. */
  function IndexOf<T(==)>(xs: seq<T>, x: T): (r: Option<nat>)
    ensures r.Some? ==> r.value < |xs| && xs[r.value] == x
    ensures r.Some? ==> forall j :: 0 <= j < r.value ==> xs[j] != x
    ensures r.None? <==> x !in xs
  {
    if |xs| == 0 then None
    else if xs[0] == x then Some(0)
    else
      match IndexOf(xs[1..], x)
      case None => None
      case Some(k) => Some(k + 1)
  }

  /** Position `i` is a valid Python list index for a list of length `n`
      (negative indices count from the end). */
  predicate PyIndexOk(i: int, n: nat) {
    -(n as int) <= i < n
  }

  /** The non-negative position Python reads for index `i`: the index itself,
      or for a negative index that many places back from the end. */
  function PyIndex(i: int, n: nat): (k: nat)
    requires PyIndexOk(i, n)
    ensures k < n
    ensures 0 <= i ==> k == i
    ensures i < 0 ==> k == n + i
  {
    if i < 0 then i + n else i
  }
}

=== FILE: vocabulary.dfy ===
/** The annotator's fixed configuration: the five attribute groups with their
    value lists, the record header, the accepted image extensions, the
    radio-button id scheme, and the ways a handler can stop early. */
module Vocabulary {

  /** Why a handler stopped before finishing. The first three are warning
      dialogs the program shows before returning; the rest are Python exceptions. */
  datatype Fault =
    | NoDataset        // "You must import dataset."
    | EmptyDataset     // "No image found."
    | Incomplete       // "You have to check all groups"
    | IndexError
    | ValueError
    | AttributeError   // a call to a method the class does not define

  /** The five mutually exclusive attribute groups, in button-id order. */
  datatype Group = InOut | Weather | TimeOfDay | Motion | Illumination

  const Groups: seq<Group> := [InOut, Weather, TimeOfDay, Motion, Illumination]

  /** The value list behind each group's radio buttons. */
  function Values(g: Group): seq<string> {
    match g
    case InOut => ["indoor", "outdoor", "etc"]
    case Weather => ["clear", "clouds", "rain", "foggy", "thunder", "overcast", "extra_sunny", "etc"]
    case TimeOfDay => ["dawn", "morning_to_day", "evening", "night", "etc"]
    case Motion => ["o", "x"]
    case Illumination => ["bright", "dim", "dark"]
  }

  /** The group's position in `Groups`: the tens digit of its buttons' ids. */
  function Index(g: Group): (i: nat)
    ensures i < |Groups| && Groups[i] == g
  {
    match g
    case InOut => 0
    case Weather => 1
    case TimeOfDay => 2
    case Motion => 3
    case Illumination => 4
  }

  /** The column names of the record table. */
  const Header: seq<string> :=
    ["id", "image_path", "annotated", "in_out", "weather", "time_of_day", "motion_blur", "illuminance", "last_modified"]

  /** The image file extensions the catalogue accepts, lower-case with the dot. */
  const Extensions: seq<string> := [".jpg", ".jpeg", ".png", ".gif", ".svg", ".tif", ".tiff"]

  /** A decoded button id: group number and position within the group. */
  datatype ButtonRef = ButtonRef(grp: int, pos: int)

  /** Python's `divmod(id, 10)`, which floors; with a positive divisor that is
      Dafny's Euclidean division. */
  function Decode(id: int): (r: ButtonRef)
    ensures 10 * r.grp + r.pos == id
    ensures 0 <= r.pos < 10
  {
    ButtonRef(id / 10, id % 10)
  }

  /** The id `create_group` gives the button for value `k` of group `g`: the
      group's offset 0, 10, 20, 30 or 40 plus the position. It decodes back to
      the group and the position, because no list holds ten or more values. */
  function Encode(g: Group, k: nat): (id: nat)
    requires k < |Values(g)|
    ensures id < 10 * |Groups|
    ensures Decode(id) == ButtonRef(Index(g), k)
  {
    10 * Index(g) + k
  }

  /** The ids of the buttons the program registers. */
  predicate IsButtonId(id: int) {
    exists g: Group, k: nat :: k < |Values(g)| && id == Encode(g, k)
  }

  /** Distinct buttons get distinct ids. */
  lemma EncodeInjective(g1: Group, k1: nat, g2: Group, k2: nat)
    requires k1 < |Values(g1)| && k2 < |Values(g2)|
    requires Encode(g1, k1) == Encode(g2, k2)
    ensures g1 == g2 && k1 == k2
  {
    assert Decode(Encode(g1, k1)) == Decode(Encode(g2, k2));
    assert Groups[Index(g1)] == g1 && Groups[Index(g2)] == g2;
  }

  /** Every registered id decodes to a group number below five and a position
      inside that group's list. */
  lemma DecodeButtonId(id: int)
    requires IsButtonId(id)
    ensures var r := Decode(id);
      0 <= r.grp < |Groups| && 0 <= r.pos < |Values(Groups[r.grp])| && Encode(Groups[r.grp], r.pos) == id
  {
    var g: Group, k: nat :| k < |Values(g)| && id == Encode(g, k);
    assert Decode(id) == ButtonRef(Index(g), k);
  }

  /** The hard-coded ids 17 and 24 that the indoor rule checks are the buttons
      of the last, "etc", entries of the weather and time-of-day lists. */
  lemma IndoorButtonIds()
    ensures Encode(Weather, |Values(Weather)| - 1) == 17 && Values(Weather)[7] == "etc"
    ensures Encode(TimeOfDay, |Values(TimeOfDay)| - 1) == 24 && Values(TimeOfDay)[4] == "etc"
  {
  }

  /** No group lists a value twice, so a value determines its button. */
  lemma ValuesDistinct(g: Group, i: nat, j: nat)
    requires i < j < |Values(g)|
    ensures Values(g)[i] != Values(g)[j]
  {
  }
}

=== FILE: wrappers.dfy ===
/** The optional-value and result wrappers shared by the annotator model. */
module Wrappers {

  /** An optional value: the model's stand-in for a Python lookup that may find nothing. */
  datatype Option<+T> = None | Some(value: T)

  /** Either a value or the error that stopped the computation (a Python exception
      or a warning dialog that ends the handler early). */
  datatype Result<+T, +E> = Success(value: T) | Failure(error: E)
}
